=== FILE: README.md ===
# Mantid core decision logic, modelled in Dafny

This project models five self-contained pieces of Mantid, the neutron and muon data-reduction
framework, and proves properties about them:

- **Enabled-when settings** (`EnabledWhenProperty`). A tree of conditions decides whether an
  algorithm property is enabled. A leaf tests another property of the same algorithm: is
  default, is not default, equal to, not equal to, or integer greater-or-equal. An inner node
  combines two sub-conditions with AND, OR or XOR. Evaluation returns a `Result`, so every
  exception the C++ throws is a `Failure`. `LexicalCast` models the `boost::lexical_cast<int>`
  the integer comparison uses.
- **Scanning workspace builder** (`ScanningWorkspaceBuilder`). The builder collects a histogram,
  scan time ranges, per-detector positions and rotations (or whole-instrument angles) and an
  indexing layout. It validates each input against the detector and time-index counts, then
  builds a workspace of `nDetectors * nTimeIndexes` spectra. Each setter maps a builder to a
  `Result`; on failure the caller keeps the builder it had.
- **Run-log properties in NeXus files** (`PropertyNexus`, `NexusStringRows`). A property is
  saved as an NXlog group and loaded back from one. The file is a record: the "value" field's
  type, dimensions and contents, and the "time" field's offsets and `start` attribute. String
  time series are packed into a zero-filled character matrix and read back from the start of
  each row up to the next NUL.
- **S(Q, w) rebinning configuration** (`SofQW2`). This covers the energy mode and fixed-energy
  resolution, the per-detector fixed energy, and the angle cache that marks spectra to skip. It
  also covers the main loop's skip test and the work it hands to the rebinning.
- **SANS beam-centre settings** (`BeamCentreModel`). This covers per-instrument defaults and
  scaling, the search direction, and how the external centre finder is called: once, or twice
  in centre-of-mass mode.

Times are integer nanoseconds from the 1990-01-01 epoch of Mantid's date type. Floating-point
numbers are reals. The NeXus file, the property manager, the run's logs, the instrument's
detectors and the SANS centre finder are parameters of the operations.

## Model

| member | source | states |
|---|---|---|
| `LexicalCast.ToInt` | Framework/Kernel/src/EnabledWhenProperty.cpp:141-142 | succeeds exactly on a non-empty digit string, optionally after one `+` or `-`, whose signed decimal value is a 32-bit integer, and then gives that value |
| `LexicalCast.ToIntOfIntToString` | Framework/Kernel/src/EnabledWhenProperty.cpp:141-142 | casting the decimal text of any 32-bit integer gives back that integer |
| `EnabledWhenProperty.MakeLeaf` | Framework/Kernel/src/EnabledWhenProperty.cpp:20-26 | the leaf constructor sets only the property details, to the given name, criterion and value |
| `EnabledWhenProperty.MakeComparison` | Framework/Kernel/src/EnabledWhenProperty.cpp:60-66 | the combining constructor stores the first condition, the second condition and the operator, in that order, and sets no property details; combining well-formed nodes gives a well-formed node |
| `EnabledWhenProperty.MakeComparisonOfCopies` | Framework/Kernel/src/EnabledWhenProperty.cpp:37-46 | the by-reference constructor stores copies of both conditions with the operator and yields a well-formed node; for well-formed conditions it builds the same node as the owning constructor |
| `EnabledWhenProperty.Clone` | Framework/Kernel/src/EnabledWhenProperty.cpp:74-85 | a copy of any node with some details set has exactly one of the details set, at every level |
| `EnabledWhenProperty.LookUp` | Framework/Kernel/src/EnabledWhenProperty.cpp:163-180 | the named property is found exactly when the manager is non-null and holds the name; otherwise the error is null-manager or not-found, in that order |
| `EnabledWhenProperty.MoreOrEqual` | Framework/Kernel/src/EnabledWhenProperty.cpp:140-144 | succeeds exactly when both texts cast to `int`, and then answers `>=`; the stored value is cast first, so its failure is reported first |
| `EnabledWhenProperty.CheckCriterion` | Framework/Kernel/src/EnabledWhenProperty.cpp:122-153 | fails exactly on a failed lookup, an unknown criterion, or a failed integer cast; a failed lookup is reported whatever the criterion; on a found property IS_MORE_OR_EQ is the integer comparison of both cast texts, whatever spelling `lexical_cast` accepts |
| `EnabledWhenProperty.CheckComparison` | Framework/Kernel/src/EnabledWhenProperty.cpp:100-111 | AND is true exactly when both children are true and false as soon as the first is false; OR is false exactly when both are false and true as soon as the first is true; XOR succeeds exactly when both children do and is their inequality; any other operator is a runtime error |
| `EnabledWhenProperty.IsEnabled` | Framework/Kernel/src/EnabledWhenProperty.cpp:190-198 | a node with property details checks its criterion; otherwise one with comparison details combines its children; a node with neither is the runtime error, which no well-formed node reaches |
| `EnabledWhenProperty.IsVisible` | Framework/Kernel/src/EnabledWhenProperty.cpp:208-210 | the setting never hides its property |
| `EnabledWhenProperty.DefaultCriteriaComplementary` | Framework/Kernel/src/EnabledWhenProperty.cpp:132-135 | IS_DEFAULT answers the other property's default flag, and IS_NOT_DEFAULT its negation; both fail together with the same error |
| `EnabledWhenProperty.EqualityCriteriaComplementary` | Framework/Kernel/src/EnabledWhenProperty.cpp:136-139 | IS_EQUAL_TO is exact text equality with the stored value, and IS_NOT_EQUAL_TO is always its complement |
| `EnabledWhenProperty.LookupFailsEveryCriterion` | Framework/Kernel/src/EnabledWhenProperty.cpp:125-128 | a null manager or a missing property is a runtime error for every criterion, IS_DEFAULT included |
| `EnabledWhenProperty.MoreOrEqOnIntegerTexts` | Framework/Kernel/src/EnabledWhenProperty.cpp:140-144 | on the texts of two 32-bit integers, IS_MORE_OR_EQ is integer `>=` |
| `EnabledWhenProperty.UnknownCriterionIsInvalidArgument` | Framework/Kernel/src/EnabledWhenProperty.cpp:145-151 | an unknown criterion on a present property is an `invalid_argument` |
| `EnabledWhenProperty.ComparisonCombinesChildren` | Framework/Kernel/src/EnabledWhenProperty.cpp:100-111 | when both children evaluate, a node is the AND, OR or XOR of their values; an unknown operator is an error |
| `EnabledWhenProperty.ShortCircuit` | Framework/Kernel/src/EnabledWhenProperty.cpp:101-108 | AND after a false child and OR after a true child never see the second child's error; XOR always does |
| `EnabledWhenProperty.CloneOfWellFormedIsIdentity` | Framework/Kernel/src/EnabledWhenProperty.cpp:74-85 | copying a node built by the public constructors reproduces it exactly |
| `EnabledWhenProperty.CloneEvaluatesIdentically` | Framework/Kernel/src/EnabledWhenProperty.cpp:222-224 | a clone evaluates like its original on every manager |
| `EnabledWhenProperty.ComparisonOfCopiesEvaluatesIdentically` | Framework/Kernel/src/EnabledWhenProperty.cpp:43-46 | combining copies evaluates like combining the originals |
| `ScanningWorkspaceBuilder.New` | Framework/DataObjects/src/ScanningWorkspaceBuilder.cpp:20-27 | a fresh builder has the Default layout, bin edges 1 to nBins + 1, nBins zero counts and nothing else set, and it meets the builder invariant |
| `ScanningWorkspaceBuilder.VerifyTimeIndexSize` | Framework/DataObjects/src/ScanningWorkspaceBuilder.cpp:288-295 | passes exactly when the size equals the time-index count |
| `ScanningWorkspaceBuilder.VerifyDetectorSize` | Framework/DataObjects/src/ScanningWorkspaceBuilder.cpp:297-303 | passes exactly when the size equals the detector count |
| `ScanningWorkspaceBuilder.SetHistogram` | Framework/DataObjects/src/ScanningWorkspaceBuilder.cpp:36-44 | accepts exactly nBins counts with nBins + 1 edges; it changes only the histogram |
| `ScanningWorkspaceBuilder.SetTimeRanges` | Framework/DataObjects/src/ScanningWorkspaceBuilder.cpp:52-56 | accepts exactly one range per time index; it changes only the ranges |
| `ScanningWorkspaceBuilder.ContiguousRanges` | Framework/DataObjects/src/ScanningWorkspaceBuilder.cpp:70-79 | one range per duration: the first starts at the start time, each starts where the previous one ended, and each lasts its duration |
| `ScanningWorkspaceBuilder.ContiguousRangesEndAtPrefixSums` | Framework/DataObjects/src/ScanningWorkspaceBuilder.cpp:74-79 | range i ends at the start time plus the sum of the first i + 1 durations |
| `ScanningWorkspaceBuilder.SetTimeRangesFromDurations` | Framework/DataObjects/src/ScanningWorkspaceBuilder.cpp:65-82 | accepts exactly one duration per time index and sets back-to-back ranges from the start time; nothing else changes |
| `ScanningWorkspaceBuilder.SetPositions` | Framework/DataObjects/src/ScanningWorkspaceBuilder.cpp:91-104 | succeeds exactly when neither positions nor angles are set and the input has one row per detector of one entry per time index; a prior setting is the first error |
| `ScanningWorkspaceBuilder.SetRotations` | Framework/DataObjects/src/ScanningWorkspaceBuilder.cpp:113-126 | the same rules as for positions, with rotations |
| `ScanningWorkspaceBuilder.SetRelativeRotationsForScans` | Framework/DataObjects/src/ScanningWorkspaceBuilder.cpp:140-152 | succeeds exactly when neither positions nor rotations are set and there is one angle per time index |
| `ScanningWorkspaceBuilder.SetIndexingType` | Framework/DataObjects/src/ScanningWorkspaceBuilder.cpp:159-165 | succeeds exactly while the layout is still Default |
| `ScanningWorkspaceBuilder.ValidateInputs` | Framework/DataObjects/src/ScanningWorkspaceBuilder.cpp:305-310 | passes exactly when time ranges are set |
| `ScanningWorkspaceBuilder.TimeOrientedDefinitions` | Framework/DataObjects/src/ScanningWorkspaceBuilder.cpp:254-269 | nDet * nTime spectra; spectrum d * nTime + t holds exactly (d, t) |
| `ScanningWorkspaceBuilder.DetectorOrientedDefinitions` | Framework/DataObjects/src/ScanningWorkspaceBuilder.cpp:271-286 | nDet * nTime spectra; spectrum t * nDet + d holds exactly (d, t) |
| `ScanningWorkspaceBuilder.TimeOrientedLayoutIsBijective` | Framework/DataObjects/src/ScanningWorkspaceBuilder.cpp:260-265 | the time-oriented layout is a bijection between [0, nDet * nTime) and the in-range (detector, time) pairs |
| `ScanningWorkspaceBuilder.DetectorOrientedLayoutIsBijective` | Framework/DataObjects/src/ScanningWorkspaceBuilder.cpp:277-282 | the detector-oriented layout is a bijection between [0, nDet * nTime) and the in-range (detector, time) pairs |
| `ScanningWorkspaceBuilder.LayoutsArePermutations` | Framework/DataObjects/src/ScanningWorkspaceBuilder.cpp:254-286 | the two layouts hold the same pair at d * nTime + t and at t * nDet + d |
| `ScanningWorkspaceBuilder.BuildIndexInfo` | Framework/DataObjects/src/ScanningWorkspaceBuilder.cpp:192-203 | nDet * nTime spectra; Default leaves the definitions to the framework, and both explicit layouts are bijective |
| `ScanningWorkspaceBuilder.BuildWorkspace` | Framework/DataObjects/src/ScanningWorkspaceBuilder.cpp:172-206 | fails exactly when no time ranges are set; otherwise nDet * nTime spectra carrying the builder's histogram, time ranges as scan intervals, positions, rotations and instrument angles, and the index information of the chosen layout (none for Default, a bijective layout otherwise) |
| `ScanningWorkspaceBuilder.FreshBuilder` | Framework/DataObjects/src/ScanningWorkspaceBuilder.cpp:20-27 | a fresh builder's own histogram passes `setHistogram`, and it cannot be built before time ranges are set |
| `ScanningWorkspaceBuilder.SettersPreserveValid` | Framework/DataObjects/src/ScanningWorkspaceBuilder.cpp:36-165 | every successful setter keeps the size invariant and the exclusion between angles and positions or rotations |
| `ScanningWorkspaceBuilder.PositionsRotationsAnglesExclusion` | Framework/DataObjects/src/ScanningWorkspaceBuilder.cpp:94-148 | positions and rotations may coexist; either excludes instrument angles, and angles exclude both |
| `ScanningWorkspaceBuilder.IndexingTypeSetOnce` | Framework/DataObjects/src/ScanningWorkspaceBuilder.cpp:159-165 | after one non-Default choice, every further choice fails |
| `ScanningWorkspaceBuilder.BuildAfterDurations` | Framework/DataObjects/src/ScanningWorkspaceBuilder.cpp:172-179 | after the durations setter the workspace builds, and its intervals span from the start time to the start time plus all durations |
| `NexusStringRows.CString` | Code/Mantid/Framework/API/src/PropertyNexus.cpp:70-71 | a C string of a buffer is its NUL-free prefix up to the first NUL or the end |
| `NexusStringRows.MaxLength` | Code/Mantid/Framework/API/src/PropertyNexus.cpp:219-222 | the longest string length, reached by some string, or 0 for none |
| `NexusStringRows.Pack` | Code/Mantid/Framework/API/src/PropertyNexus.cpp:219-235 | dims are [n, maxlen + 1], and row i is string i's characters padded with NULs |
| `NexusStringRows.PaddedRowReadsBack` | Code/Mantid/Framework/API/src/PropertyNexus.cpp:224-229 | a packed row reads back as its string, whatever follows it in the buffer |
| `NexusStringRows.UnpackAsWritten` | Code/Mantid/Framework/API/src/PropertyNexus.cpp:63-71 | fails exactly unless rank 2; string i is read from offset i * span of the buffer and stops at the first NUL after it, or at the end of the buffer, so it may run past its own row |
| `NexusStringRows.UnpackRows` | Code/Mantid/Framework/API/src/PropertyNexus.cpp:63-71 | fails exactly unless rank 2; string i is row i up to its first NUL, or the whole row |
| `NexusStringRows.PackUnpackRoundTrip` | Code/Mantid/Framework/API/src/PropertyNexus.cpp:219-235 | reading packed strings back gives each one up to its first NUL, and exactly the strings when none holds a NUL |
| `NexusStringRows.PackUnpackAsWrittenRoundTrip` | Code/Mantid/Framework/API/src/PropertyNexus.cpp:224-229 | on packed data the as-written reader stays inside the buffer and also gives the strings back |
| `NexusStringRows.FullWidthRowOverrun` | Code/Mantid/Framework/API/src/PropertyNexus.cpp:70-71 | the 2 by 2 buffer "abc" NUL reads as "abc", "c" with the as-written reader and as "ab", "c" row by row |
| `PropertyNexus.NumericTypeOf` | Code/Mantid/Framework/API/src/PropertyNexus.cpp:125-154 | float32 loads as float, float64 as double, and the signed and unsigned 32- and 64-bit types as their own types; the 8- and 16-bit types, char and any other type load as no numeric property |
| `PropertyNexus.NexusTypeOf` | Code/Mantid/Framework/API/src/PropertyNexus.cpp:164-170 | a numeric property is written with the storage type that loads back as its own value type |
| `PropertyNexus.LoadTimes` | Code/Mantid/Framework/API/src/PropertyNexus.cpp:110-121 | no time field gives no times; otherwise time i is the start plus offset i, with 2000-01-01T00:00:00 as the default start |
| `PropertyNexus.Pair` | Code/Mantid/Framework/API/src/PropertyNexus.cpp:46 | entry i pairs time i with value i, as many as the shorter vector has |
| `PropertyNexus.MakeProperty` | Code/Mantid/Framework/API/src/PropertyNexus.cpp:35-49 | with no times, a single value holding the first number; otherwise a series pairing times with numbers |
| `PropertyNexus.MakeStringProperty` | Code/Mantid/Framework/API/src/PropertyNexus.cpp:53-78 | with no times, the whole text; otherwise string i is read from the start of row i up to the next NUL in the buffer and paired with time i, as many as there are both; a rank other than 2 is the error |
| `PropertyNexus.Load` | Code/Mantid/Framework/API/src/PropertyNexus.cpp:89-159 | no property for the 8- and 16-bit types; a series exactly when the time field has entries, timed by the loaded times; the value type and the values are those read (the first number, the whole text, numbers paired with times, or string i read from row i up to the next NUL); errors only for a non-matrix string series |
| `PropertyNexus.SaveTimes` | Code/Mantid/Framework/API/src/PropertyNexus.cpp:184-196 | the start is the first time, offset 0 is zero, and the start plus each offset is that entry's time |
| `PropertyNexus.Save` | Code/Mantid/Framework/API/src/PropertyNexus.cpp:243-281 | writes a group exactly for a known value type that is not an empty series; it has a time field exactly for a series |
| `PropertyNexus.SavedTimesLoadBack` | Code/Mantid/Framework/API/src/PropertyNexus.cpp:187-191 | the time field a series is saved with loads back as its own times |
| `PropertyNexus.SaveLoadRoundTrip` | Code/Mantid/Framework/API/src/PropertyNexus.cpp:243-281 | loading a saved property gives it back, for every savable property whose strings hold no NUL |
| `PropertyNexus.EmptyTimeFieldIsSingleValue` | Code/Mantid/Framework/API/src/PropertyNexus.cpp:110-121 | a time field without entries loads as if there were none |
| `SofQW2.EModeCode` | Code/Mantid/Framework/Algorithms/src/SofQW2.cpp:222-224 | Elastic is 0, Direct is 1 and Indirect is 2, and no two modes share a code |
| `SofQW2.EModeFromString` | Code/Mantid/Framework/Algorithms/src/SofQW2.cpp:220-224 | "Direct" and only it selects direct, "Indirect" and only it selects indirect, and anything else is elastic; the stored code is 1, 2 or 0 accordingly |
| `SofQW2.ResolveSettings` | Code/Mantid/Framework/Algorithms/src/SofQW2.cpp:217-256 | fails exactly in direct mode with EFixed 0 and no double "Ei": another type is the runtime error, and none is the invalid argument; a nonzero EFixed counts as given in every mode; "Ei" is used otherwise |
| `SofQW2.GetEFixed` | Code/Mantid/Framework/Algorithms/src/SofQW2.cpp:154-173 | direct mode and a given EFixed use the resolved value; otherwise the detector's first parameter is used, and an empty list is the only failure |
| `SofQW2.TrackAsWritten` | Code/Mantid/Framework/Algorithms/src/SofQW2.cpp:311-318 | an angle below the minimum becomes the minimum and leaves the maximum; otherwise an angle above the maximum becomes the maximum; an angle inside the bounds changes nothing |
| `SofQW2.Track` | Code/Mantid/Framework/Algorithms/src/SofQW2.cpp:311-318 | the new bounds contain the angle and the old bounds, and each is the old bound or the angle |
| `SofQW2.DescendingAnglesMissMaximum` | Code/Mantid/Framework/Algorithms/src/SofQW2.cpp:275-318 | for angles 2 then 1 the as-written maximum stays at -DBL_MAX, below both; corrected tracking gives 1 and 2 |
| `SofQW2.FoldCoversAngles` | Code/Mantid/Framework/Algorithms/src/SofQW2.cpp:275-318 | with both bounds tested for every angle, the tracked bounds contain every angle, are angles themselves, and keep their starting values when there are none |
| `SofQW2.AsWrittenKeepsMinimum` | Code/Mantid/Framework/Algorithms/src/SofQW2.cpp:311-318 | the as-written tracking finds the true minimum; its maximum is never above the true one and is an angle or -DBL_MAX |
| `SofQW2.CorrectedBounds` | Code/Mantid/Framework/Algorithms/src/SofQW2.cpp:275-318 | the bounds the cache is meant to hold: every usable angle lies within them, both are reached by usable spectra, and with no usable spectrum they are DBL_MAX and -DBL_MAX |
| `SofQW2.CacheBoundsAsWritten` | Code/Mantid/Framework/Algorithms/src/SofQW2.cpp:302-318 | the as-written bounds over the usable spectra keep the corrected minimum and stay at or below the corrected maximum, which they reach only at a usable spectrum's angle |
| `SofQW2.InitThetaCache` | Code/Mantid/Framework/Algorithms/src/SofQW2.cpp:270-320 | each cached angle is the detector's angle for a usable spectrum (detector present, EFixed resolvable, not a monitor) and -1 otherwise, so it is non-negative exactly when usable; the count is the number usable; the bounds are the as-written tracking over the usable angles, with the corrected minimum, a maximum at or below the corrected one, and a maximum that is a usable angle or -DBL_MAX |
| `SofQW2.ExpectedWork` | Code/Mantid/Framework/Algorithms/src/SofQW2.cpp:100-124 | one work item per usable spectrum, with strictly increasing indices; each item is a usable spectrum with the EFixed `getEFixed` gives for it, and every usable spectrum has an item |
| `SofQW2.Exec` | Code/Mantid/Framework/Algorithms/src/SofQW2.cpp:64-147 | rejects input without common binning first, then propagates the settings errors; otherwise it works on exactly the usable spectra, and the in-loop EFixed lookup never fails |
| `SofQW2.DirectModeSkipsOnlyMonitors` | Code/Mantid/Framework/Algorithms/src/SofQW2.cpp:282-305 | in resolved direct mode a spectrum is skipped only for a missing detector or a monitor |
| `SofQW2.SettledEFixedIgnoresDetector` | Code/Mantid/Framework/Algorithms/src/SofQW2.cpp:157-163 | in direct mode, or with a given EFixed, every detector gets the same EFixed |
| `SofQW2.ElasticModeReadsDetector` | Code/Mantid/Framework/Algorithms/src/SofQW2.cpp:161-170 | mode 0 with no EFixed reads the detector parameter exactly like indirect mode |
| `BeamCentreModel.Reset` | scripts/SANS/sans/gui_logic/models/beam_centre_model.py:14-36 | the listed defaults, with an outer radius of 200 on LOQ and a first scale of 1 on LARMOR; the finder is kept |
| `BeamCentreModel.SetScaling` | scripts/SANS/sans/gui_logic/models/beam_centre_model.py:38-42 | both scales are 1000, except a first scale of 1 on LARMOR; nothing else changes |
| `BeamCentreModel.FindDirection` | scripts/SANS/sans/gui_logic/models/beam_centre_model.py:54-63 | All for both flags, Up_Down or Left_Right for one, and none for neither |
| `BeamCentreModel.FindBeamCentre` | scripts/SANS/sans/gui_logic/models/beam_centre_model.py:44-89 | with no direction: the LAB position and no calls; otherwise truthy Q bounds go into the state, then one call, or two in COM mode with the first seeding the second; the last call uses the reduction method |
| `BeamCentreModel.Equal` | scripts/SANS/sans/gui_logic/models/beam_centre_model.py:11-12 | models are equal exactly when all attributes are equal |
| `BeamCentreModel.ResetForgetsSettings` | scripts/SANS/sans/gui_logic/models/beam_centre_model.py:14-36 | two models with the same finder are equal after a reset for the same instrument |
| `BeamCentreModel.ScalingAgreesWithReset` | scripts/SANS/sans/gui_logic/models/beam_centre_model.py:38-42 | scaling after a reset for the same instrument changes nothing, and scaling is idempotent |
| `BeamCentreModel.SingleCallSearch` | scripts/SANS/sans/gui_logic/models/beam_centre_model.py:83-88 | without COM the search is one reduction-method call from the LAB position |
| `BeamCentreModel.NoDirectionIgnoresFinder` | scripts/SANS/sans/gui_logic/models/beam_centre_model.py:60-63 | with no direction chosen the finder is never called |

## Left out

- NeXus file handling (opening and closing groups, data and attributes) is not modelled. A group
  is a record of its two fields.
- ISO 8601 parsing and formatting of the `start` attribute is not modelled. The attribute is
  held as nanoseconds.
- The conversion of time offsets between nanoseconds and seconds in floating point is not
  modelled. Offsets are exact integer nanoseconds, so the save/load round trip ignores rounding.
- Conversions between numeric widths (float, 32- and 64-bit integers) are not modelled. All
  numbers are reals.
- `TimeSeriesProperty` is not part of this model. Its `addValues` is taken to pair times and
  values up to the shorter vector. Its time sorting is not modelled: a series' entries are the
  order its accessors return.
- `saveProperty` reaches the typed savers through `dynamic_cast`. The model dispatches on the
  property's value type instead, and `int` and `int32_t` are one type.
- The detector-info merge, positions, rotations and quaternion rotation of
  `buildWorkspace` are not modelled. The built workspace holds the builder's inputs and the
  index layout.
- SofQW2's Q formulas (square roots and trigonometry), the output workspace set-up, polygon
  rebinning, normalisation, parallel execution, progress reports and the angular width are not
  modelled. The algorithm's "common binning" test is an input.
- The angular width divides the angle range by the count of usable spectra. It is not modelled
  because it is floating-point division, and its inputs are stated in `SofQW2.InitThetaCache`.
- The SANS centre finder is an uninterpreted function from state and call arguments to a
  centre. The Python logger notice on the early return is not modelled.
- `BeamCentreModel.Model` holds the settings `find_beam_centre` reads. The Q bounds are optional
  reals. Python truthiness of other values (empty strings, `None`) for them is modelled only as
  "unset or zero".
- The `-1` skip marker relies on detector angles being non-negative. `SofQW2.InitThetaCache` and
  `SofQW2.Exec` require angles in [0, DBL_MAX), which holds for scattering angles.
- `EnabledWhenProperty.CloneEvaluatesIdentically` is stated for conditions built by the public
  constructors. A node with both details set (which no constructor builds) is copied as its
  comparison only, and its copy may evaluate differently.
- `ScanningWorkspaceBuilder.SetTimeRangesFromDurations` requires at least one time index
  whenever the size check passes. With zero time indexes the C++ reads past the end of the
  empty durations vector.
- `NexusStringRows.UnpackAsWritten` requires the last row to hold a NUL. Otherwise the C++
  reads past the end of the buffer.
- `PropertyNexus.Load` requires a number to be present for a single numeric value, since the
  C++ reads `values[0]` unchecked. For a string series it requires a rank-2 character buffer
  that fills its matrix and whose last row holds a NUL, since the C++ reads each string up to
  the next NUL with no bound.

## Findings

| source | as written | input that shows it | evidently intended | confidence | as-written member | corrected member |
|---|---|---|---|---|---|---|
| Code/Mantid/Framework/API/src/PropertyNexus.cpp:70-71 | string i is read from `data + i*span` up to the next NUL anywhere in the buffer, so a row filled to its full width runs into the following rows | a 2 by 2 character matrix "abc" NUL reads as "abc", "c" | each string ends at the end of its own row: "ab", "c" | medium, not executed | `NexusStringRows.UnpackAsWritten` (shown by `NexusStringRows.FullWidthRowOverrun`, used by `PropertyNexus.Load`) | `NexusStringRows.UnpackRows` (proved by `NexusStringRows.PackUnpackRoundTrip`); `PropertyNexus.Load` reads as written, and on packed data the two agree by `NexusStringRows.PackUnpackAsWrittenRoundTrip` |
| Code/Mantid/Framework/Algorithms/src/SofQW2.cpp:311-318 | the maximum angle is only updated in the `else if` of the minimum test, so an angle that lowers the minimum is never compared with the maximum | detector angles 2 then 1: the maximum stays at -DBL_MAX | both bounds track every usable angle: minimum 1, maximum 2 | high, not executed | `SofQW2.TrackAsWritten` (shown by `SofQW2.DescendingAnglesMissMaximum`, used by `SofQW2.InitThetaCache`) | `SofQW2.Track` (proved by `SofQW2.FoldCoversAngles`, held as `SofQW2.CorrectedBounds`) |

=== FILE: beam_centre_model.dfy ===
/** The settings behind the SANS beam-centre finder and the way they drive it.

    The centre-finding algorithm itself is a parameter: a function from the reduction state and
    one call's arguments to the centre it reports. Numbers that the settings hold as Python ints
    or floats are reals here, which keeps Python's `1000 == 1000.0`. */
module BeamCentreModel {
  import opened Wrappers

  /** The instruments the defaults distinguish; others share the general defaults. */
  datatype Instrument = LOQ | LARMOR | SANS2D | ZOOM

  /** A start position: blank, as after a reset, or a coordinate. */
  datatype Position = Blank | At(coordinate: real)

  /** Which directions the finder searches. */
  datatype Direction = All | UpDown | LeftRight

  /** The model's attributes, including the finder it was built with. */
  datatype Model = Model(
    maxIterations: int,
    rMin: real,
    rMax: real,
    leftRight: bool,
    upDown: bool,
    tolerance: real,
    labPos1: Position,
    labPos2: Position,
    habPos1: Position,
    habPos2: Position,
    scale1: real,
    scale2: real,
    centreOfMass: bool,
    verbose: bool,
    qMin: Option<real>,
    qMax: Option<real>,
    centreFinder: nat)

  /** The part of the reduction state the model writes: the Q range of the conversion to Q. */
  datatype ReductionState = ReductionState(qMin: Option<real>, qMax: Option<real>)

  /** The arguments of one call of the finder; `verbose` is `None` when the call leaves it to
      the finder's default. */
  datatype FinderCall = FinderCall(
    rMin: real,
    rMax: real,
    maxIterations: int,
    xStart: Position,
    yStart: Position,
    tolerance: real,
    direction: Direction,
    reductionMethod: bool,
    verbose: Option<bool>)

  datatype Centre = Centre(pos1: Position, pos2: Position)

  /** What a search did: the centre it returns, the calls it made in order, and the state it
      left. */
  datatype Search = Search(centre: Centre, calls: seq<FinderCall>, state: ReductionState)

  /** Restores the defaults, adjusted for LOQ (a smaller outer radius) and LARMOR (a first
      scale of one). The finder the model was built with is kept. */
  function Reset(m: Model, instrument: Option<Instrument>): (r: Model)
    ensures r.maxIterations == 10 && r.rMin == 60.0 && r.tolerance == 0.000125
    ensures r.rMax == if instrument == Some(LOQ) then 200.0 else 280.0
    ensures r.scale1 == if instrument == Some(LARMOR) then 1.0 else 1000.0
    ensures r.scale2 == 1000.0
    ensures r.leftRight && r.upDown && !r.centreOfMass && !r.verbose
    ensures r.qMin == Some(0.01) && r.qMax == Some(0.1)
    ensures r.labPos1 == r.labPos2 == r.habPos1 == r.habPos2 == Blank
    ensures r.centreFinder == m.centreFinder
  {
    var defaults := Model(10, 60.0, 280.0, true, true, 0.000125, Blank, Blank, Blank, Blank,
                          1000.0, 1000.0, false, false, Some(0.01), Some(0.1), m.centreFinder);
    var forLoq := if instrument == Some(LOQ) then defaults.(rMax := 200.0) else defaults;
    if instrument == Some(LARMOR) then forLoq.(scale1 := 1.0) else forLoq
  }

  /** Sets both scales for an instrument: one thousand, except a first scale of one on LARMOR.
      Nothing else changes. */
  function SetScaling(m: Model, instrument: Instrument): (r: Model)
    ensures r.scale1 == if instrument == LARMOR then 1.0 else 1000.0
    ensures r.scale2 == 1000.0
    ensures r.(scale1 := m.scale1, scale2 := m.scale2) == m
  {
    var thousands := m.(scale1 := 1000.0, scale2 := 1000.0);
    if instrument == LARMOR then thousands.(scale1 := 1.0) else thousands
  }

  /** The search direction the two flags choose; `None` when neither is set. */
  function FindDirection(upDown: bool, leftRight: bool): (d: Option<Direction>)
    ensures d.None? <==> !upDown && !leftRight
    ensures d == Some(All) <==> upDown && leftRight
    ensures d == Some(UpDown) <==> upDown && !leftRight
    ensures d == Some(LeftRight) <==> !upDown && leftRight
  {
    if upDown && leftRight then Some(All)
    else if upDown then Some(UpDown)
    else if leftRight then Some(LeftRight)
    else None
  }

  /** Python truthiness of an optional number: set and nonzero. */
  predicate Truthy(q: Option<real>) {
    q.Some? && q.value != 0.0
  }

  function CallFrom(m: Model, d: Direction, x: Position, y: Position, reduction: bool, verbose: Option<bool>): FinderCall {
    FinderCall(m.rMin, m.rMax, m.maxIterations, x, y, m.tolerance, d, reduction, verbose)
  }

  /** Runs the search. With no direction chosen it returns the first LAB position pair without
      calling the finder or touching the state. Otherwise it copies each set Q bound into the
      state, then calls the finder once, or, in centre-of-mass mode, twice: a first call
      without the reduction method whose result seeds a second call with it. */
  function FindBeamCentre(m: Model, state: ReductionState, finder: (ReductionState, FinderCall) -> Centre): (r: Search)
    ensures FindDirection(m.upDown, m.leftRight).None? ==>
              r == Search(Centre(m.labPos1, m.labPos2), [], state)
    ensures FindDirection(m.upDown, m.leftRight).Some? ==>
              && |r.calls| == (if m.centreOfMass then 2 else 1)
              && r.state.qMin == (if Truthy(m.qMin) then m.qMin else state.qMin)
              && r.state.qMax == (if Truthy(m.qMax) then m.qMax else state.qMax)
              && r.centre == finder(r.state, r.calls[|r.calls| - 1])
              && r.calls[|r.calls| - 1].reductionMethod
              && r.calls[|r.calls| - 1].verbose == Some(m.verbose)
              && r.calls[0].xStart == m.labPos1 && r.calls[0].yStart == m.labPos2
              && (forall k :: 0 <= k < |r.calls| ==>
                    r.calls[k].direction == FindDirection(m.upDown, m.leftRight).value
                    && r.calls[k].rMin == m.rMin && r.calls[k].rMax == m.rMax
                    && r.calls[k].maxIterations == m.maxIterations && r.calls[k].tolerance == m.tolerance)
    ensures m.centreOfMass && FindDirection(m.upDown, m.leftRight).Some? ==>
              && !r.calls[0].reductionMethod && r.calls[0].verbose.None?
              && r.calls[1].xStart == finder(r.state, r.calls[0]).pos1
              && r.calls[1].yStart == finder(r.state, r.calls[0]).pos2
  {
    match FindDirection(m.upDown, m.leftRight)
    case None => Search(Centre(m.labPos1, m.labPos2), [], state)
    case Some(d) =>
      var withMin := if Truthy(m.qMin) then state.(qMin := m.qMin) else state;
      var s := if Truthy(m.qMax) then withMin.(qMax := m.qMax) else withMin;
      if m.centreOfMass then
        var first := CallFrom(m, d, m.labPos1, m.labPos2, false, None);
        var seed := finder(s, first);
        var second := CallFrom(m, d, seed.pos1, seed.pos2, true, Some(m.verbose));
        Search(finder(s, second), [first, second], s)
      else
        var only := CallFrom(m, d, m.labPos1, m.labPos2, true, Some(m.verbose));
        Search(finder(s, only), [only], s)
  }

  /** Two models are equal when every attribute is equal, the finder included. */
  function Equal(a: Model, b: Model): (r: bool)
    ensures r <==>
      && a.maxIterations == b.maxIterations && a.rMin == b.rMin && a.rMax == b.rMax
      && a.leftRight == b.leftRight && a.upDown == b.upDown && a.tolerance == b.tolerance
      && a.labPos1 == b.labPos1 && a.labPos2 == b.labPos2 && a.habPos1 == b.habPos1 && a.habPos2 == b.habPos2
      && a.scale1 == b.scale1 && a.scale2 == b.scale2 && a.centreOfMass == b.centreOfMass
      && a.verbose == b.verbose && a.qMin == b.qMin && a.qMax == b.qMax && a.centreFinder == b.centreFinder
  {
    a == b
  }

  /** A reset forgets everything but the finder: two models with the same finder are equal
      after a reset for the same instrument. */
  lemma ResetForgetsSettings(a: Model, b: Model, instrument: Option<Instrument>)
    requires a.centreFinder == b.centreFinder
    ensures Equal(Reset(a, instrument), Reset(b, instrument))
  {
  }

  /** After a reset for an instrument, setting the scaling for it changes nothing; setting it
      twice is setting it once. */
  lemma ScalingAgreesWithReset(m: Model, instrument: Instrument)
    ensures SetScaling(Reset(m, Some(instrument)), instrument) == Reset(m, Some(instrument))
    ensures SetScaling(SetScaling(m, instrument), instrument) == SetScaling(m, instrument)
  {
  }

  /** Without the centre-of-mass pass the search is one reduction-method call from the LAB
      position; the finder is never consulted when no direction is chosen. */
  lemma SingleCallSearch(m: Model, state: ReductionState, finder: (ReductionState, FinderCall) -> Centre)
    requires !m.centreOfMass && (m.upDown || m.leftRight)
    ensures var r := FindBeamCentre(m, state, finder);
            r.calls == [FinderCall(m.rMin, m.rMax, m.maxIterations, m.labPos1, m.labPos2, m.tolerance,
                                   FindDirection(m.upDown, m.leftRight).value, true, Some(m.verbose))]
  {
  }

  /** A search with no direction gives the same answer whatever the finder. */
  lemma NoDirectionIgnoresFinder(m: Model, state: ReductionState, f: (ReductionState, FinderCall) -> Centre, g: (ReductionState, FinderCall) -> Centre)
    requires !m.upDown && !m.leftRight
    ensures FindBeamCentre(m, state, f) == FindBeamCentre(m, state, g)
  {
  }
}

=== FILE: enabled_when_property.dfy ===
/** The `EnabledWhenProperty` property setting: a small condition tree deciding whether an
    algorithm property is enabled, judged against the other properties of a property manager.

    A node holds either the details of one property test (a leaf) or two sub-conditions joined
    by a logical operator (an inner node), as the C++ object holds one of two owned pointers.
    Evaluation follows the C++ operators: `&&` and `||` short-circuit, so an error in a second
    condition that is never evaluated does not surface; `^` evaluates both. When both operands
    of `^` throw, C++ leaves unspecified which exception surfaces, since the operands are
    unsequenced; the model reports the first condition's error, and the contracts do not rely
    on that choice. */
module EnabledWhenProperty {
  import opened Wrappers
  import LexicalCast

  /** What a property manager knows about one of its properties. */
  datatype Property = Property(value: string, isDefault: bool)

  /** A property manager as seen through a possibly null `IPropertyManager` pointer:
      `None` is the null pointer, otherwise the properties by name. */
  type Manager = Option<map<string, Property>>

  /** `ePropertyCriterion`; `OutOfRangeCriterion` stands for any value outside the enumerators. */
  datatype Criterion =
    | IsDefault
    | IsNotDefault
    | IsEqualTo
    | IsNotEqualTo
    | IsMoreOrEq
    | OutOfRangeCriterion(code: int)

  /** `eLogicOperator`; `OutOfRangeOperator` stands for any value outside the enumerators. */
  datatype LogicOperator = And | Or | Xor | OutOfRangeOperator(code: int)

  datatype PropertyDetails = PropertyDetails(otherPropName: string, criterion: Criterion, value: string)

  datatype ComparisonDetails =
    ComparisonDetails(conditionOne: Condition, conditionTwo: Condition, logicOperator: LogicOperator)

  /** One `EnabledWhenProperty` object: its two (possibly null) owned detail pointers. */
  datatype Condition = Condition(propertyDetails: Option<PropertyDetails>, comparisonDetails: Option<ComparisonDetails>)

  /** The errors evaluation can raise. */
  datatype Error =
    | NullManager
    | PropertyNotFound(name: string)
    | UnknownCriterion(name: string)
    | BadLexicalCast(text: string)
    | UnknownLogicOperator
    | NoDetails

  /** The C++ exception class each error is thrown as. */
  datatype ExceptionClass = RuntimeError | InvalidArgument | BadLexicalCastClass

  function ClassOf(e: Error): ExceptionClass {
    match e
    case UnknownCriterion(_) => InvalidArgument
    case BadLexicalCast(_) => BadLexicalCastClass
    case _ => RuntimeError
  }

  /** A node built by one of the two public constructors: exactly one of the details is set,
      and so on down the tree. */
  predicate WellFormed(c: Condition) {
    match c.comparisonDetails
    case Some(cmp) => c.propertyDetails.None? && WellFormed(cmp.conditionOne) && WellFormed(cmp.conditionTwo)
    case None => c.propertyDetails.Some?
  }

  /** Every node of the tree has at least one of the details set: what the copy constructor
      asserts of the object it copies. */
  predicate Copyable(c: Condition) {
    match c.comparisonDetails
    case Some(cmp) => Copyable(cmp.conditionOne) && Copyable(cmp.conditionTwo)
    case None => c.propertyDetails.Some?
  }

  /** The leaf constructor. */
  function MakeLeaf(otherPropName: string, when: Criterion, value: string): (c: Condition)
    ensures WellFormed(c)
    ensures c.propertyDetails == Some(PropertyDetails(otherPropName, when, value))
  {
    Condition(Some(PropertyDetails(otherPropName, when, value)), None)
  }

  /** The constructor taking ownership of two conditions. */
  function MakeComparison(one: Condition, two: Condition, op: LogicOperator): (c: Condition)
    ensures WellFormed(one) && WellFormed(two) ==> WellFormed(c)
    ensures c.propertyDetails.None?
    ensures c.comparisonDetails == Some(ComparisonDetails(one, two, op))
  {
    Condition(None, Some(ComparisonDetails(one, two, op)))
  }

  /** The constructor taking two conditions by reference: it copies both, then forwards. */
  function MakeComparisonOfCopies(one: Condition, two: Condition, op: LogicOperator): (c: Condition)
    requires Copyable(one) && Copyable(two)
    ensures WellFormed(c)
    ensures c.propertyDetails.None?
    ensures c.comparisonDetails == Some(ComparisonDetails(Clone(one), Clone(two), op))
    ensures WellFormed(one) && WellFormed(two) ==> c == MakeComparison(one, two, op)
  {
    if WellFormed(one) && WellFormed(two) then
      CloneOfWellFormedIsIdentity(one);
      CloneOfWellFormedIsIdentity(two);
      MakeComparison(Clone(one), Clone(two), op)
    else
      MakeComparison(Clone(one), Clone(two), op)
  }

  /** The copy constructor (and `clone`): a set comparison is copied, otherwise the property
      details are, and the other detail is left unset. The sub-conditions are copied as values
      here; conditions never change after construction, so whether the C++ copy shares them or
      duplicates them makes no difference to evaluation. */
  function Clone(c: Condition): (r: Condition)
    requires Copyable(c)
    ensures WellFormed(r)
  {
    match c.comparisonDetails
    case Some(cmp) =>
      Condition(None, Some(ComparisonDetails(Clone(cmp.conditionOne), Clone(cmp.conditionTwo), cmp.logicOperator)))
    case None => Condition(c.propertyDetails, None)
  }

  /** `getPropertyValue` with the pointer lookup that follows it: the named property, or the
      error for a null manager or a missing property. */
  function LookUp(name: string, m: Manager): (r: Result<Property, Error>)
    ensures r.Success? <==> m.Some? && name in m.value
    ensures r.Success? ==> r.value == m.value[name]
    ensures m.None? ==> r == Failure(NullManager)
    ensures m.Some? && name !in m.value ==> r == Failure(PropertyNotFound(name))
  {
    match m
    case None => Failure(NullManager)
    case Some(props) => if name in props then Success(props[name]) else Failure(PropertyNotFound(name))
  }

  /** `IS_MORE_OR_EQ`: both texts cast to `int` (the stored value first), then compared. */
  function MoreOrEqual(propValue: string, value: string): (r: Result<bool, Error>)
    ensures r.Success? <==> LexicalCast.ToInt(value).Some? && LexicalCast.ToInt(propValue).Some?
    ensures r.Success? ==> r.value == (LexicalCast.ToInt(propValue).value >= LexicalCast.ToInt(value).value)
    ensures LexicalCast.ToInt(value).None? ==> r == Failure(BadLexicalCast(value))
  {
    match LexicalCast.ToInt(value)
    case None => Failure(BadLexicalCast(value))
    case Some(check) =>
      match LexicalCast.ToInt(propValue)
      case None => Failure(BadLexicalCast(propValue))
      case Some(iPropV) => Success(iPropV >= check)
  }

  /** `checkCriterion`: the lookup happens first, whatever the criterion. */
  function CheckCriterion(d: PropertyDetails, m: Manager): (r: Result<bool, Error>)
    ensures r.Failure? <==>
              || LookUp(d.otherPropName, m).Failure?
              || d.criterion.OutOfRangeCriterion?
              || (d.criterion == IsMoreOrEq && MoreOrEqual(m.value[d.otherPropName].value, d.value).Failure?)
    ensures LookUp(d.otherPropName, m).Failure? ==> r == Failure(LookUp(d.otherPropName, m).error)
    ensures LookUp(d.otherPropName, m).Success? && d.criterion.OutOfRangeCriterion? ==>
              r == Failure(UnknownCriterion(d.otherPropName))
    ensures LookUp(d.otherPropName, m).Success? && d.criterion == IsMoreOrEq ==>
              r == MoreOrEqual(m.value[d.otherPropName].value, d.value)
  {
    match LookUp(d.otherPropName, m)
    case Failure(e) => Failure(e)
    case Success(prop) =>
      match d.criterion
      case IsDefault => Success(prop.isDefault)
      case IsNotDefault => Success(!prop.isDefault)
      case IsEqualTo => Success(prop.value == d.value)
      case IsNotEqualTo => Success(prop.value != d.value)
      case IsMoreOrEq => MoreOrEqual(prop.value, d.value)
      case OutOfRangeCriterion(_) => Failure(UnknownCriterion(d.otherPropName))
  }

  /** `isEnabled`: a leaf test when property details exist, else the comparison, else an error. */
  function IsEnabled(c: Condition, m: Manager): (r: Result<bool, Error>)
    ensures c.propertyDetails.Some? ==> r == CheckCriterion(c.propertyDetails.value, m)
    ensures c.propertyDetails.None? && c.comparisonDetails.Some? ==> r == CheckComparison(c.comparisonDetails.value, m)
    ensures c.propertyDetails.None? && c.comparisonDetails.None? ==> r == Failure(NoDetails) && ClassOf(r.error) == RuntimeError
    ensures WellFormed(c) && r.Failure? ==> r.error != NoDetails
    decreases c, 1
  {
    match c.propertyDetails
    case Some(d) => CheckCriterion(d, m)
    case None =>
      match c.comparisonDetails
      case Some(cmp) => CheckComparison(cmp, m)
      case None => Failure(NoDetails)
  }

  /** `checkComparison`: the operator decides which children are evaluated; an exception of an
      evaluated child propagates. */
  function CheckComparison(cmp: ComparisonDetails, m: Manager): (r: Result<bool, Error>)
    ensures cmp.logicOperator == And ==>
              && (r == Success(true) <==>
                    IsEnabled(cmp.conditionOne, m) == Success(true) && IsEnabled(cmp.conditionTwo, m) == Success(true))
              && (r == Success(false) <==>
                    || IsEnabled(cmp.conditionOne, m) == Success(false)
                    || (IsEnabled(cmp.conditionOne, m) == Success(true) && IsEnabled(cmp.conditionTwo, m) == Success(false)))
    ensures cmp.logicOperator == Or ==>
              && (r == Success(false) <==>
                    IsEnabled(cmp.conditionOne, m) == Success(false) && IsEnabled(cmp.conditionTwo, m) == Success(false))
              && (r == Success(true) <==>
                    || IsEnabled(cmp.conditionOne, m) == Success(true)
                    || (IsEnabled(cmp.conditionOne, m) == Success(false) && IsEnabled(cmp.conditionTwo, m) == Success(true)))
    ensures cmp.logicOperator == Xor ==>
              && (r.Success? <==> IsEnabled(cmp.conditionOne, m).Success? && IsEnabled(cmp.conditionTwo, m).Success?)
              && (r.Success? ==> r.value == (IsEnabled(cmp.conditionOne, m).value != IsEnabled(cmp.conditionTwo, m).value))
    ensures cmp.logicOperator.OutOfRangeOperator? ==> r == Failure(UnknownLogicOperator)
    ensures WellFormed(cmp.conditionOne) && WellFormed(cmp.conditionTwo) && r.Failure? ==> r.error != NoDetails
    decreases cmp, 0
  {
    match cmp.logicOperator
    case And =>
      (match IsEnabled(cmp.conditionOne, m)
       case Failure(e) => Failure(e)
       case Success(b1) => if !b1 then Success(false) else IsEnabled(cmp.conditionTwo, m))
    case Or =>
      (match IsEnabled(cmp.conditionOne, m)
       case Failure(e) => Failure(e)
       case Success(b1) => if b1 then Success(true) else IsEnabled(cmp.conditionTwo, m))
    case Xor =>
      (match IsEnabled(cmp.conditionOne, m)
       case Failure(e) => Failure(e)
       case Success(b1) =>
         match IsEnabled(cmp.conditionTwo, m)
         case Failure(e) => Failure(e)
         case Success(b2) => Success(b1 != b2))
    case OutOfRangeOperator(_) => Failure(UnknownLogicOperator)
  }

  /** `isVisible`: an enabled-when setting never hides its property. */
  function IsVisible(c: Condition, m: Manager): (r: bool)
    ensures r
  {
    true
  }

  /** IS_DEFAULT answers the other property's default flag and IS_NOT_DEFAULT its negation; on
      any manager they succeed or fail together, with the same error. */
  lemma DefaultCriteriaComplementary(name: string, v1: string, v2: string, m: Manager)
    ensures var r1 := CheckCriterion(PropertyDetails(name, IsDefault, v1), m);
            var r2 := CheckCriterion(PropertyDetails(name, IsNotDefault, v2), m);
            && r1.Success? == r2.Success?
            && (r1.Success? ==> r1.value == m.value[name].isDefault && r2.value == !r1.value)
            && (r1.Failure? ==> r1.error == r2.error)
  {
  }

  /** IS_EQUAL_TO compares the other property's text exactly with the stored value, and
      IS_NOT_EQUAL_TO with the same value is always its complement. */
  lemma EqualityCriteriaComplementary(name: string, value: string, m: Manager)
    ensures var r1 := CheckCriterion(PropertyDetails(name, IsEqualTo, value), m);
            var r2 := CheckCriterion(PropertyDetails(name, IsNotEqualTo, value), m);
            && r1.Success? == r2.Success?
            && (r1.Success? ==> (r1.value <==> m.value[name].value == value) && r2.value == !r1.value)
            && (r1.Failure? ==> r1.error == r2.error)
  {
  }

  /** A null manager or a missing property is an error for every criterion, IS_DEFAULT included. */
  lemma LookupFailsEveryCriterion(d: PropertyDetails, m: Manager)
    requires m.None? || d.otherPropName !in m.value
    ensures CheckCriterion(d, m).Failure?
    ensures ClassOf(CheckCriterion(d, m).error) == RuntimeError
  {
  }

  /** IS_MORE_OR_EQ on integer texts is integer `>=` on the numbers they print. */
  lemma MoreOrEqOnIntegerTexts(name: string, propValue: int, threshold: int, isDefault: bool)
    requires LexicalCast.IntMin <= propValue <= LexicalCast.IntMax
    requires LexicalCast.IntMin <= threshold <= LexicalCast.IntMax
    ensures var m := Some(map[name := Property(LexicalCast.IntToString(propValue), isDefault)]);
            CheckCriterion(PropertyDetails(name, IsMoreOrEq, LexicalCast.IntToString(threshold)), m)
              == Success(propValue >= threshold)
  {
    LexicalCast.ToIntOfIntToString(propValue);
    LexicalCast.ToIntOfIntToString(threshold);
  }

  /** An unknown criterion on a present property is an `invalid_argument`. */
  lemma UnknownCriterionIsInvalidArgument(name: string, code: int, value: string, m: Manager)
    requires m.Some? && name in m.value
    ensures var r := CheckCriterion(PropertyDetails(name, OutOfRangeCriterion(code), value), m);
            r.Failure? && ClassOf(r.error) == InvalidArgument
  {
  }

  /** A composite node whose children both evaluate yields AND, OR or XOR of their values; an
      unknown operator is an error whatever the children. */
  lemma {:induction false} ComparisonCombinesChildren(one: Condition, two: Condition, op: LogicOperator, m: Manager)
    requires IsEnabled(one, m).Success? && IsEnabled(two, m).Success?
    ensures var b1 := IsEnabled(one, m).value;
            var b2 := IsEnabled(two, m).value;
            var r := IsEnabled(MakeComparison(one, two, op), m);
            && (op == And ==> r == Success(b1 && b2))
            && (op == Or ==> r == Success(b1 || b2))
            && (op == Xor ==> r == Success(b1 != b2))
            && (op.OutOfRangeOperator? ==> r == Failure(UnknownLogicOperator))
  {
    var c := MakeComparison(one, two, op);
    assert IsEnabled(c, m) == CheckComparison(ComparisonDetails(one, two, op), m);
  }

  /** `&&` and `||` short-circuit: a first child that decides the answer hides any error of the
      second, while XOR always surfaces it. */
  lemma {:induction false} ShortCircuit(one: Condition, two: Condition, m: Manager)
    requires IsEnabled(two, m).Failure?
    ensures IsEnabled(one, m) == Success(false) ==> IsEnabled(MakeComparison(one, two, And), m) == Success(false)
    ensures IsEnabled(one, m) == Success(true) ==> IsEnabled(MakeComparison(one, two, Or), m) == Success(true)
    ensures IsEnabled(one, m).Success? ==> IsEnabled(MakeComparison(one, two, Xor), m) == IsEnabled(two, m)
  {
    assert IsEnabled(MakeComparison(one, two, And), m) == CheckComparison(ComparisonDetails(one, two, And), m);
    assert IsEnabled(MakeComparison(one, two, Or), m) == CheckComparison(ComparisonDetails(one, two, Or), m);
    assert IsEnabled(MakeComparison(one, two, Xor), m) == CheckComparison(ComparisonDetails(one, two, Xor), m);
  }

  /** Copying a well-formed condition reproduces it exactly. */
  lemma {:induction false} CloneOfWellFormedIsIdentity(c: Condition)
    requires WellFormed(c)
    ensures Copyable(c) && Clone(c) == c
  {
    match c.comparisonDetails
    case Some(cmp) =>
      CloneOfWellFormedIsIdentity(cmp.conditionOne);
      CloneOfWellFormedIsIdentity(cmp.conditionTwo);
    case None =>
  }

  /** A clone evaluates identically to its original on every manager. */
  lemma CloneEvaluatesIdentically(c: Condition, m: Manager)
    requires WellFormed(c)
    ensures Copyable(c) && IsEnabled(Clone(c), m) == IsEnabled(c, m)
  {
    CloneOfWellFormedIsIdentity(c);
  }

  /** Combining copies is the same as combining the originals. */
  lemma ComparisonOfCopiesEvaluatesIdentically(one: Condition, two: Condition, op: LogicOperator, m: Manager)
    requires WellFormed(one) && WellFormed(two)
    ensures Copyable(one) && Copyable(two)
    ensures IsEnabled(MakeComparisonOfCopies(one, two, op), m) == IsEnabled(MakeComparison(one, two, op), m)
  {
    CloneOfWellFormedIsIdentity(one);
    CloneOfWellFormedIsIdentity(two);
  }
}

=== FILE: lexical_cast.dfy ===
/** `boost::lexical_cast<int>` on text: an optional sign followed by one or more decimal
    digits, nothing else, and a value that fits a 32-bit signed `int`; any other text is a
    `bad_lexical_cast`. */
module LexicalCast {
  import opened Wrappers

  const IntMin: int := -0x8000_0000
  const IntMax: int := 0x7fff_ffff

  predicate IsDigit(c: char) {
    '0' <= c <= '9'
  }

  predicate AllDigits(s: string) {
    forall i :: 0 <= i < |s| ==> IsDigit(s[i])
  }

  function DigitValue(c: char): nat
    requires IsDigit(c)
  {
    (c as int) - ('0' as int)
  }

  /** The number a run of decimal digits denotes, most significant digit first (0 for none). */
  function DigitsValue(s: string): nat
    requires AllDigits(s)
  {
    if s == [] then 0 else DigitsValue(s[..|s| - 1]) * 10 + DigitValue(s[|s| - 1])
  }

  predicate IsSign(c: char) {
    c == '-' || c == '+'
  }

  /** An optional sign followed by one or more decimal digits. */
  predicate IsNumeral(s: string) {
    if |s| > 0 && IsSign(s[0]) then |s| > 1 && AllDigits(s[1..]) else |s| > 0 && AllDigits(s)
  }

  /** The integer a numeral denotes, negated after a minus sign. */
  function NumeralValue(s: string): int
    requires IsNumeral(s)
  {
    if s[0] == '-' then -(DigitsValue(s[1..]) as int)
    else if s[0] == '+' then DigitsValue(s[1..])
    else DigitsValue(s)
  }

  /** Parses `s` as a 32-bit `int`; `None` is the `bad_lexical_cast` case. */
  function ToInt(s: string): (r: Option<int>)
    ensures r.Some? <==> IsNumeral(s) && IntMin <= NumeralValue(s) <= IntMax
    ensures r.Some? ==> r.value == NumeralValue(s)
    ensures r.Some? && s[0] == '-' ==> r.value == -(DigitsValue(s[1..]) as int) && r.value <= 0
    ensures r.Some? && !IsSign(s[0]) ==> AllDigits(s) && r.value == DigitsValue(s)
  {
    if |s| > 0 && (s[0] == '-' || s[0] == '+') then
      var digits := s[1..];
      if |digits| == 0 || !AllDigits(digits) then None
      else
        var n: int := if s[0] == '-' then -(DigitsValue(digits) as int) else DigitsValue(digits);
        if IntMin <= n <= IntMax then Some(n) else None
    else if |s| == 0 || !AllDigits(s) then None
    else if DigitsValue(s) <= IntMax then Some(DigitsValue(s))
    else None
  }

  /** Decimal digits of `n`, without leading zeros. */
  function NatToDigits(n: nat): (s: string)
    ensures |s| > 0 && AllDigits(s)
  {
    if n < 10 then [('0' as int + n) as char]
    else NatToDigits(n / 10) + [('0' as int + n % 10) as char]
  }

  /** The text `std::to_string` gives for `n`: a minus sign for negatives, then the digits. */
  function IntToString(n: int): string {
    if n < 0 then "-" + NatToDigits(-n) else NatToDigits(n)
  }

  lemma {:induction false} DigitsRoundTrip(n: nat)
    ensures DigitsValue(NatToDigits(n)) == n
  {
    var s := NatToDigits(n);
    if n >= 10 {
      DigitsRoundTrip(n / 10);
      assert s[..|s| - 1] == NatToDigits(n / 10);
    }
  }

  /** Printing an in-range integer and casting the text back yields the integer. */
  lemma ToIntOfIntToString(n: int)
    requires IntMin <= n <= IntMax
    ensures ToInt(IntToString(n)) == Some(n)
  {
    if n < 0 {
      DigitsRoundTrip(-n);
      assert IntToString(n)[1..] == NatToDigits(-n);
    } else {
      DigitsRoundTrip(n);
    }
  }
}

=== FILE: nexus_string_rows.dfy ===
/** The fixed-width character matrix in which a NeXus log stores a series of strings.

    Packing gives every string a row `maxlen + 1` characters wide in a zero-filled buffer, so
    that each row ends in at least one NUL; unpacking reads each row back as a C string. Two
    readers are modelled: the one the loader uses as written, which starts at the row and reads
    up to the first NUL anywhere in the rest of the buffer, and one bounded to the row. */
module NexusStringRows {
  import opened Wrappers

  const Nul: char := 0 as char

  predicate NulFree(s: string) {
    forall i :: 0 <= i < |s| ==> s[i] != Nul
  }

  /** The characters of `s` before its first NUL: what a C string made from `s` holds. */
  function CString(s: string): (r: string)
    ensures NulFree(r)
    ensures r <= s
    ensures |r| < |s| ==> s[|r|] == Nul
  {
    if s == [] || s[0] == Nul then [] else [s[0]] + CString(s[1..])
  }

  function Zeros(n: nat): (z: string)
    ensures |z| == n
    ensures forall i :: 0 <= i < n ==> z[i] == Nul
  {
    seq(n, i => Nul)
  }

  /** The length of the longest string, 0 for none. */
  function MaxLength(values: seq<string>): (m: nat)
    ensures forall i :: 0 <= i < |values| ==> |values[i]| <= m
    ensures |values| > 0 ==> exists i :: 0 <= i < |values| && |values[i]| == m
    ensures |values| == 0 ==> m == 0
  {
    if values == [] then 0
    else
      var rest := MaxLength(values[1..]);
      if |values[0]| > rest then |values[0]| else rest
  }

  /** One row of the packed buffer: `strncpy` of the string's characters into a zeroed row
      copies those before the first NUL, and the rest of the row stays zero. */
  function PaddedRow(v: string, width: nat): (row: string)
    requires |v| < width
    ensures |row| == width
  {
    CString(v) + Zeros(width - |CString(v)|)
  }

  function Concat(rows: seq<string>): string {
    if rows == [] then [] else rows[0] + Concat(rows[1..])
  }

  /** The packed matrix: its dimensions and its row-major characters. */
  datatype CharMatrix = CharMatrix(dims: seq<nat>, data: string)

  /** Packs a series of strings into an `n` by `maxlen + 1` zero-filled matrix. */
  function Pack(values: seq<string>): (m: CharMatrix)
    ensures m.dims == [|values|, MaxLength(values) + 1]
    ensures |m.data| == |values| * (MaxLength(values) + 1)
    ensures forall i :: 0 <= i < |values| ==>
              RowsOf(m.data, |values|, MaxLength(values) + 1)[i] == PaddedRow(values[i], MaxLength(values) + 1)
  {
    var width := MaxLength(values) + 1;
    var rows := PaddedRows(values, width);
    PaddedRowsLayout(values, width, rows);
    CharMatrix([|values|, width], Concat(rows))
  }

  lemma PaddedRowsLayout(values: seq<string>, width: nat, rows: seq<string>)
    requires forall i :: 0 <= i < |values| ==> |values[i]| < width
    requires rows == PaddedRows(values, width)
    ensures |Concat(rows)| == |values| * width
    ensures forall i :: 0 <= i < |values| ==> RowsOf(Concat(rows), |values|, width)[i] == PaddedRow(values[i], width)
  {
    RowsOfConcat(rows, width);
  }

  function PaddedRows(values: seq<string>, width: nat): (rows: seq<string>)
    requires forall i :: 0 <= i < |values| ==> |values[i]| < width
    ensures |rows| == |values|
    ensures forall i :: 0 <= i < |rows| ==> rows[i] == PaddedRow(values[i], width) && |rows[i]| == width
  {
    seq(|values|, i requires 0 <= i < |values| => PaddedRow(values[i], width))
  }

  lemma Distribute(a: int, b: int, c: int)
    ensures (a + b) * c == a * c + b * c
  {
  }

  /** The buffer cut into `n` consecutive rows of `span` characters. */
  function RowsOf(data: string, n: nat, span: nat): (rows: seq<string>)
    requires |data| == n * span
    ensures |rows| == n
    ensures forall i :: 0 <= i < n ==> |rows[i]| == span
    decreases n
  {
    if n == 0 then []
    else
      Distribute(n - 1, 1, span);
      [data[..span]] + RowsOf(data[span..], n - 1, span)
  }

  /** The buffer seen from the start of each of its `n` rows to its end: `data + i * span`. */
  function TailsOf(data: string, n: nat, span: nat): (tails: seq<string>)
    requires |data| == n * span
    ensures |tails| == n
    decreases n
  {
    if n == 0 then []
    else
      Distribute(n - 1, 1, span);
      [data] + TailsOf(data[span..], n - 1, span)
  }

  lemma {:induction false} RowsOfConcat(rows: seq<string>, width: nat)
    requires forall i :: 0 <= i < |rows| ==> |rows[i]| == width
    ensures |Concat(rows)| == |rows| * width
    ensures RowsOf(Concat(rows), |rows|, width) == rows
  {
    if rows != [] {
      RowsOfConcat(rows[1..], width);
      Distribute(|rows| - 1, 1, width);
      var c := Concat(rows);
      assert c == rows[0] + Concat(rows[1..]);
      assert c[..width] == rows[0];
      assert c[width..] == Concat(rows[1..]);
      assert RowsOf(c, |rows|, width) == [rows[0]] + RowsOf(Concat(rows[1..]), |rows| - 1, width);
      assert rows == [rows[0]] + rows[1..];
    }
  }

  /** Seen from row `i`, the concatenated buffer is the concatenation of rows `i` onward. */
  lemma {:induction false} TailsOfConcat(rows: seq<string>, width: nat, i: nat)
    requires forall j :: 0 <= j < |rows| ==> |rows[j]| == width
    requires i < |rows|
    ensures |Concat(rows)| == |rows| * width
    ensures TailsOf(Concat(rows), |rows|, width)[i] == Concat(rows[i..])
  {
    RowsOfConcat(rows, width);
    var c := Concat(rows);
    Distribute(|rows| - 1, 1, width);
    assert c == rows[0] + Concat(rows[1..]);
    assert c[width..] == Concat(rows[1..]);
    RowsOfConcat(rows[1..], width);
    assert TailsOf(c, |rows|, width) == [c] + TailsOf(Concat(rows[1..]), |rows| - 1, width);
    if i > 0 {
      TailsOfConcat(rows[1..], width, i - 1);
      assert rows[1..][i - 1..] == rows[i..];
    } else {
      assert rows[0..] == rows;
    }
  }

  /** A NUL-free prefix followed by a NUL reads back as the prefix. */
  lemma {:induction false} CStringStopsAtNul(a: string, b: string)
    requires NulFree(a)
    ensures CString(a + [Nul] + b) == a
  {
    if a != [] {
      assert (a + [Nul] + b)[1..] == a[1..] + [Nul] + b;
      CStringStopsAtNul(a[1..], b);
    } else {
      assert (a + [Nul] + b)[0] == Nul;
    }
  }

  /** A string without NUL is its own C string. */
  lemma {:induction false} CStringOfNulFree(s: string)
    requires NulFree(s)
    ensures CString(s) == s
  {
    if s != [] {
      CStringOfNulFree(s[1..]);
      assert s == [s[0]] + s[1..];
    }
  }

  /** A padded row, whatever follows it in the buffer, reads back as the C string of its value. */
  lemma PaddedRowReadsBack(v: string, width: nat, rest: string)
    requires |v| < width
    ensures CString(PaddedRow(v, width)) == CString(v)
    ensures CString(PaddedRow(v, width) + rest) == CString(v)
  {
    var c := CString(v);
    var z := Zeros(width - |c|);
    assert |z| > 0;
    assert z == [Nul] + z[1..];
    assert PaddedRow(v, width) == c + [Nul] + z[1..];
    CStringStopsAtNul(c, z[1..]);
    assert PaddedRow(v, width) + rest == c + [Nul] + (z[1..] + rest);
    CStringStopsAtNul(c, z[1..] + rest);
  }

  /** The last row of a rank-2 buffer holds a NUL: then a read starting at any row stops inside
      the buffer. */
  predicate TerminatedBuffer(m: CharMatrix)
    requires |m.dims| == 2 && |m.data| == m.dims[0] * m.dims[1]
  {
    m.dims[0] == 0 || Nul in RowsOf(m.data, m.dims[0], m.dims[1])[m.dims[0] - 1]
  }

  /** The loader's reader as written: `None` unless the matrix has rank 2; string `i` is read
      from `data + i * span` up to the first NUL, which for a row filled to its full width lies
      in a later row. */
  function UnpackAsWritten(m: CharMatrix): (r: Option<seq<string>>)
    requires |m.dims| == 2 ==> |m.data| == m.dims[0] * m.dims[1] && TerminatedBuffer(m)
    ensures r.Some? <==> |m.dims| == 2
    ensures r.Some? ==> |r.value| == m.dims[0]
    ensures r.Some? ==> forall i :: 0 <= i < |r.value| ==>
              var tail := TailsOf(m.data, m.dims[0], m.dims[1])[i];
              && NulFree(r.value[i])
              && r.value[i] <= tail
              && (|r.value[i]| < |tail| ==> tail[|r.value[i]|] == Nul)
  {
    if |m.dims| != 2 then None
    else
      var tails := TailsOf(m.data, m.dims[0], m.dims[1]);
      Some(seq(m.dims[0], i requires 0 <= i < m.dims[0] => CString(tails[i])))
  }

  /** The reader bounded to the row: string `i` is the characters of row `i` before its first
      NUL, or the whole row when it has none. */
  function UnpackRows(m: CharMatrix): (r: Option<seq<string>>)
    requires |m.dims| == 2 ==> |m.data| == m.dims[0] * m.dims[1]
    ensures r.Some? <==> |m.dims| == 2
    ensures r.Some? ==> |r.value| == m.dims[0]
    ensures r.Some? ==> forall i :: 0 <= i < |r.value| ==>
              var row := RowsOf(m.data, m.dims[0], m.dims[1])[i];
              && NulFree(r.value[i])
              && r.value[i] <= row
              && (|r.value[i]| < |row| ==> row[|r.value[i]|] == Nul)
  {
    if |m.dims| != 2 then None
    else
      var rows := RowsOf(m.data, m.dims[0], m.dims[1]);
      Some(seq(m.dims[0], i requires 0 <= i < m.dims[0] => CString(rows[i])))
  }

  /** Packing then reading back with the bounded reader yields each string up to its first
      NUL; for NUL-free strings, the strings themselves. */
  lemma PackUnpackRoundTrip(values: seq<string>)
    ensures UnpackRows(Pack(values)) == Some(CStrings(values))
    ensures (forall i :: 0 <= i < |values| ==> NulFree(values[i])) ==> UnpackRows(Pack(values)) == Some(values)
  {
    var m := Pack(values);
    var u := UnpackRows(m).value;
    forall i | 0 <= i < |values|
      ensures u[i] == CString(values[i])
    {
      RowReadsBack(values, i);
    }
    assert u == CStrings(values);
    if forall i :: 0 <= i < |values| ==> NulFree(values[i]) {
      CStringsOfNulFree(values);
    }
  }

  lemma RowReadsBack(values: seq<string>, i: nat)
    requires i < |values|
    ensures UnpackRows(Pack(values)).value[i] == CString(values[i])
  {
    var m := Pack(values);
    var rows := RowsOf(m.data, m.dims[0], m.dims[1]);
    assert UnpackRows(m).value[i] == CString(rows[i]);
    PaddedRowReadsBack(values[i], m.dims[1], []);
  }

  lemma CStringsOfNulFree(values: seq<string>)
    requires forall i :: 0 <= i < |values| ==> NulFree(values[i])
    ensures CStrings(values) == values
  {
    forall i | 0 <= i < |values|
      ensures CStrings(values)[i] == values[i]
    {
      CStringOfNulFree(values[i]);
    }
  }

  /** Each string of a series up to its first NUL. */
  function CStrings(values: seq<string>): (r: seq<string>)
    ensures |r| == |values|
    ensures forall i :: 0 <= i < |values| ==> r[i] == CString(values[i])
  {
    seq(|values|, i requires 0 <= i < |values| => CString(values[i]))
  }

  /** The reader as written also reads back every packed string, since every packed row ends
      in a NUL. */
  lemma PackUnpackAsWrittenRoundTrip(values: seq<string>)
    ensures TerminatedBuffer(Pack(values))
    ensures UnpackAsWritten(Pack(values)) == Some(CStrings(values))
  {
    PackIsTerminated(values);
    var m := Pack(values);
    var u := UnpackAsWritten(m).value;
    forall i | 0 <= i < |values|
      ensures u[i] == CStrings(values)[i]
    {
      PackedTailReadsBack(values, i);
    }
    assert u == CStrings(values);
  }

  /** The last packed row is padded, so it holds a NUL. */
  lemma PackIsTerminated(values: seq<string>)
    ensures TerminatedBuffer(Pack(values))
  {
    if |values| > 0 {
      PaddedRowHasNul(values[|values| - 1], MaxLength(values) + 1);
    }
  }

  lemma PaddedRowHasNul(v: string, width: nat)
    requires |v| < width
    ensures Nul in PaddedRow(v, width)
  {
    var c := CString(v);
    assert PaddedRow(v, width)[|c|] == Zeros(width - |c|)[0];
  }

  /** Read from the start of its row to the end of the buffer, a packed string stops inside
      its own row. */
  lemma PackedTailReadsBack(values: seq<string>, i: nat)
    requires i < |values|
    ensures CString(TailsOf(Pack(values).data, |values|, MaxLength(values) + 1)[i]) == CString(values[i])
  {
    var width := MaxLength(values) + 1;
    assert forall j :: 0 <= j < |values| ==> |values[j]| < width;
    var rows := PaddedRows(values, width);
    assert Pack(values).data == Concat(rows);
    TailsOfConcat(rows, width, i);
    RowsFromReadBack(values, width, rows, i);
    var tails := TailsOf(Pack(values).data, |values|, width);
    assert tails == TailsOf(Concat(rows), |rows|, width);
    assert tails[i] == Concat(rows[i..]);
  }

  /** The rows from row `i` on read back as string `i`. */
  lemma RowsFromReadBack(values: seq<string>, width: nat, rows: seq<string>, i: nat)
    requires forall j :: 0 <= j < |values| ==> |values[j]| < width
    requires rows == PaddedRows(values, width)
    requires i < |values|
    ensures CString(Concat(rows[i..])) == CString(values[i])
  {
    assert Concat(rows[i..]) == rows[i] + Concat(rows[i + 1..]) by {
      assert rows[i..][1..] == rows[i + 1..];
    }
    PaddedRowReadsBack(values[i], width, Concat(rows[i + 1..]));
  }

  /** A full-width row runs into the next one with the reader as written: the 2 by 2 buffer
      "abc" NUL reads back as "abc", "c"; bounded to its row, the first string is "ab". */
  lemma FullWidthRowOverrun()
    ensures var m := CharMatrix([2, 2], "abc" + [Nul]);
            && TerminatedBuffer(m)
            && UnpackAsWritten(m) == Some(["abc", "c"])
            && UnpackRows(m) == Some(["ab", "c"])
  {
    OverrunTails();
    OverrunAsWritten();
    OverrunBounded();
  }

  /** The row tails and rows of the 2 by 2 buffer "abc" NUL. */
  lemma OverrunTails()
    ensures TailsOf("abc" + [Nul], 2, 2) == ["abc" + [Nul], "c" + [Nul]]
    ensures RowsOf("abc" + [Nul], 2, 2) == ["ab", "c" + [Nul]]
  {
    var data := "abc" + [Nul];
    assert data[2..] == "c" + [Nul];
    assert data[..2] == "ab";
    assert data[2..][..2] == "c" + [Nul];
    assert data[2..][2..] == [];
  }

  /** The reader as written reads "abc" from the first row of that buffer. */
  lemma OverrunAsWritten()
    requires TailsOf("abc" + [Nul], 2, 2) == ["abc" + [Nul], "c" + [Nul]]
    requires RowsOf("abc" + [Nul], 2, 2) == ["ab", "c" + [Nul]]
    ensures UnpackAsWritten(CharMatrix([2, 2], "abc" + [Nul])) == Some(["abc", "c"])
  {
    var data := "abc" + [Nul];
    CStringStopsAtNul("abc", []);
    assert "abc" + [Nul] + [] == data;
    CStringStopsAtNul("c", []);
    assert "c" + [Nul] + [] == "c" + [Nul];
    var u := UnpackAsWritten(CharMatrix([2, 2], data)).value;
    assert u[0] == CString(data) == "abc";
    assert u[1] == CString("c" + [Nul]) == "c";
    assert u == ["abc", "c"];
  }

  /** The bounded reader reads "ab" from the first row of that buffer. */
  lemma OverrunBounded()
    requires RowsOf("abc" + [Nul], 2, 2) == ["ab", "c" + [Nul]]
    ensures UnpackRows(CharMatrix([2, 2], "abc" + [Nul])) == Some(["ab", "c"])
  {
    CStringStopsAtNul("c", []);
    assert "c" + [Nul] + [] == "c" + [Nul];
    CStringOfNulFree("ab");
    var w := UnpackRows(CharMatrix([2, 2], "abc" + [Nul])).value;
    assert w[0] == CString("ab") == "ab";
    assert w[1] == "c";
    assert w == ["ab", "c"];
  }
}

=== FILE: property_nexus.dfy ===
/** Saving a run-log property as an NXlog group of a NeXus file and loading it back.

    A group holds a "value" field and, for a time series, a "time" field of offsets from a
    `start` attribute. Times are whole nanoseconds since the 1990-01-01 epoch of the system's
    date type; the offsets the file holds in seconds are kept here as nanoseconds too. Numbers of
    every width are kept as reals: the conversions between widths are outside the model. */
module PropertyNexus {
  import opened Wrappers
  import NexusStringRows

  /** The storage type the file reports for the "value" field. */
  datatype NexusType =
    | Float32 | Float64
    | Int8 | UInt8 | Int16 | UInt16
    | Int32 | UInt32 | Int64 | UInt64
    | Char
    | OtherNexusType

  /** The "value" field: its type, its dimensions, and its contents read as numbers or as
      characters, as the type says. */
  datatype Field = Field(nexusType: NexusType, dims: seq<nat>, numbers: seq<real>, chars: string)

  /** The "time" field: offsets from the start, and the `start` attribute converted to
      nanoseconds, `None` when the attribute is missing or empty. */
  datatype TimeField = TimeField(offsets: seq<int>, start: Option<int>)

  datatype LogGroup = LogGroup(name: string, time: Option<TimeField>, value: Field)

  /** The value type of an in-memory property; the saver knows the seven listed ones. */
  datatype ValueType =
    | FloatType | DoubleType | Int32Type | UInt32Type | Int64Type | UInt64Type
    | StringType
    | OtherValueType(typeName: string)

  datatype Value = Number(x: real) | Text(s: string)

  datatype TimedValue = TimedValue(time: int, value: Value)

  datatype Property =
    | SingleValue(name: string, valueType: ValueType, value: Value)
    | TimeSeries(name: string, valueType: ValueType, entries: seq<TimedValue>)

  /** A string series stored in a field that is not a matrix: a runtime error. */
  datatype Error = RankNotTwo(field: string)

  /** 2000-01-01T00:00:00, the start used when a time field has none: 3652 days after the
      1990-01-01 epoch, in nanoseconds. */
  const DefaultStart: int := 315_532_800_000_000_000

  /** The property type a numeric field loads as; `None` for the types the loader does not
      load and for characters. */
  function NumericTypeOf(t: NexusType): (r: Option<ValueType>)
    ensures r == Some(FloatType) <==> t == Float32
    ensures r == Some(DoubleType) <==> t == Float64
    ensures r == Some(Int32Type) <==> t == Int32
    ensures r == Some(UInt32Type) <==> t == UInt32
    ensures r == Some(Int64Type) <==> t == Int64
    ensures r == Some(UInt64Type) <==> t == UInt64
    ensures r.None? <==> t in {Int8, UInt8, Int16, UInt16, Char, OtherNexusType}
  {
    match t
    case Float32 => Some(FloatType)
    case Float64 => Some(DoubleType)
    case Int32 => Some(Int32Type)
    case UInt32 => Some(UInt32Type)
    case Int64 => Some(Int64Type)
    case UInt64 => Some(UInt64Type)
    case _ => None
  }

  predicate IsNumeric(vt: ValueType) {
    vt != StringType && !vt.OtherValueType?
  }

  /** The storage type a numeric property is written with. */
  function NexusTypeOf(vt: ValueType): (t: NexusType)
    requires IsNumeric(vt)
    ensures NumericTypeOf(t) == Some(vt)
  {
    match vt
    case FloatType => Float32
    case DoubleType => Float64
    case Int32Type => Int32
    case UInt32Type => UInt32
    case Int64Type => Int64
    case UInt64Type => UInt64
  }

  function StartOf(tf: TimeField): int {
    match tf.start
    case Some(s) => s
    case None => DefaultStart
  }

  /** The absolute times of a log's entries: none without a time field, otherwise the start
      plus each offset. */
  function LoadTimes(time: Option<TimeField>): (times: seq<int>)
    ensures time.None? ==> times == []
    ensures time.Some? ==> |times| == |time.value.offsets|
    ensures time.Some? ==> forall i :: 0 <= i < |times| ==> times[i] - time.value.offsets[i] == StartOf(time.value)
  {
    match time
    case None => []
    case Some(tf) => seq(|tf.offsets|, i requires 0 <= i < |tf.offsets| => StartOf(tf) + tf.offsets[i])
  }

  function Min(a: int, b: int): int {
    if a < b then a else b
  }

  /** Times paired with values, as many as the shorter of the two provides. */
  function Pair(times: seq<int>, values: seq<Value>): (entries: seq<TimedValue>)
    ensures |entries| == Min(|times|, |values|)
    ensures forall i :: 0 <= i < |entries| ==> entries[i].time == times[i] && entries[i].value == values[i]
  {
    seq(Min(|times|, |values|), i requires 0 <= i < Min(|times|, |values|) => TimedValue(times[i], values[i]))
  }

  function Numbers(xs: seq<real>): (vs: seq<Value>)
    ensures |vs| == |xs| && forall i :: 0 <= i < |xs| ==> vs[i] == Number(xs[i])
  {
    seq(|xs|, i requires 0 <= i < |xs| => Number(xs[i]))
  }

  function Texts(ss: seq<string>): (vs: seq<Value>)
    ensures |vs| == |ss| && forall i :: 0 <= i < |ss| ==> vs[i] == Text(ss[i])
  {
    seq(|ss|, i requires 0 <= i < |ss| => Text(ss[i]))
  }

  /** A numeric property: the first number when there are no times, else a time series. */
  function MakeProperty(name: string, vt: ValueType, numbers: seq<real>, times: seq<int>): (p: Property)
    requires times == [] ==> |numbers| > 0
    ensures p.name == name && p.valueType == vt
    ensures p.SingleValue? <==> times == []
    ensures p.SingleValue? ==> p.value == Number(numbers[0])
    ensures p.TimeSeries? ==> p.entries == Pair(times, Numbers(numbers))
  {
    if times == [] then SingleValue(name, vt, Number(numbers[0]))
    else TimeSeries(name, vt, Pair(times, Numbers(numbers)))
  }

  /** A character buffer the loader reads as a rank-2 matrix: it fills the matrix, and its last
      row holds a NUL, so that every string read from it ends inside the buffer. */
  predicate ReadableMatrix(value: Field)
    requires |value.dims| == 2
  {
    && |value.chars| == value.dims[0] * value.dims[1]
    && NexusStringRows.TerminatedBuffer(NexusStringRows.CharMatrix(value.dims, value.chars))
  }

  /** A string property: the whole field when there are no times, else one string per row of
      a rank-2 character matrix, each read from the start of its row up to the next NUL. */
  function MakeStringProperty(name: string, value: Field, times: seq<int>): (r: Result<Property, Error>)
    requires times != [] && |value.dims| == 2 ==> ReadableMatrix(value)
    ensures r.Failure? <==> times != [] && |value.dims| != 2
    ensures r.Failure? ==> r.error == RankNotTwo(name)
    ensures r.Success? ==> r.value.name == name && r.value.valueType == StringType
    ensures r.Success? ==> (r.value.SingleValue? <==> times == [])
    ensures r.Success? && times == [] ==> r.value.value == Text(value.chars)
    ensures r.Success? && times != [] ==>
              && |r.value.entries| == Min(|times|, value.dims[0])
              && forall i :: 0 <= i < |r.value.entries| ==>
                   && r.value.entries[i].time == times[i]
                   && r.value.entries[i].value
                      == Text(NexusStringRows.CString(NexusStringRows.TailsOf(value.chars, value.dims[0], value.dims[1])[i]))
  {
    if times == [] then Success(SingleValue(name, StringType, Text(value.chars)))
    else
      match NexusStringRows.UnpackAsWritten(NexusStringRows.CharMatrix(value.dims, value.chars))
      case None => Failure(RankNotTwo(name))
      case Some(strings) => Success(TimeSeries(name, StringType, Pair(times, Texts(strings))))
  }

  /** What the loader needs of a group: a number to read for a single numeric value, and for
      a string series a readable rank-2 character matrix. */
  predicate Loadable(g: LogGroup) {
    && (NumericTypeOf(g.value.nexusType).Some? && LoadTimes(g.time) == [] ==> |g.value.numbers| > 0)
    && (g.value.nexusType == Char && LoadTimes(g.time) != [] && |g.value.dims| == 2 ==> ReadableMatrix(g.value))
  }

  /** Loads a group: `None` for the storage types that are not loaded, a time series exactly
      when the time field has entries, and an error for a string series not stored as a matrix. */
  function Load(g: LogGroup): (r: Result<Option<Property>, Error>)
    requires Loadable(g)
    ensures r.Failure? <==> g.value.nexusType == Char && LoadTimes(g.time) != [] && |g.value.dims| != 2
    ensures r.Success? ==> (r.value.None? <==> NumericTypeOf(g.value.nexusType).None? && g.value.nexusType != Char)
    ensures r.Success? && r.value.Some? ==> r.value.value.name == g.name
    ensures r.Success? && r.value.Some? ==> (r.value.value.TimeSeries? <==> LoadTimes(g.time) != [])
    ensures r.Success? && r.value.Some? && r.value.value.TimeSeries? ==>
              && |r.value.value.entries| <= |LoadTimes(g.time)|
              && forall i :: 0 <= i < |r.value.value.entries| ==> r.value.value.entries[i].time == LoadTimes(g.time)[i]
    ensures r.Success? && r.value.Some? ==>
              r.value.value.valueType == if g.value.nexusType == Char then StringType else NumericTypeOf(g.value.nexusType).value
    ensures r.Success? && r.value.Some? && r.value.value.SingleValue? ==>
              r.value.value.value == if g.value.nexusType == Char then Text(g.value.chars) else Number(g.value.numbers[0])
    ensures r.Success? && r.value.Some? && r.value.value.TimeSeries? && g.value.nexusType != Char ==>
              r.value.value.entries == Pair(LoadTimes(g.time), Numbers(g.value.numbers))
    ensures r.Success? && r.value.Some? && r.value.value.TimeSeries? && g.value.nexusType == Char ==>
              && |r.value.value.entries| == Min(|LoadTimes(g.time)|, g.value.dims[0])
              && forall i :: 0 <= i < |r.value.value.entries| ==>
                   r.value.value.entries[i].value
                   == Text(NexusStringRows.CString(NexusStringRows.TailsOf(g.value.chars, g.value.dims[0], g.value.dims[1])[i]))
  {
    var times := LoadTimes(g.time);
    match NumericTypeOf(g.value.nexusType)
    case Some(vt) => Success(Some(MakeProperty(g.name, vt, g.value.numbers, times)))
    case None =>
      if g.value.nexusType == Char then
        var p :- MakeStringProperty(g.name, g.value, times);
        Success(Some(p))
      else
        Success(None)
  }

  /** Numeric properties hold numbers and string properties hold text. */
  predicate WellTyped(p: Property) {
    match p
    case SingleValue(_, vt, v) => (vt == StringType ==> v.Text?) && (IsNumeric(vt) ==> v.Number?)
    case TimeSeries(_, vt, entries) =>
      forall i :: 0 <= i < |entries| ==>
        (vt == StringType ==> entries[i].value.Text?) && (IsNumeric(vt) ==> entries[i].value.Number?)
  }

  /** A property the saver writes: a known value type, and at least one entry in a series. */
  predicate Savable(p: Property) {
    !p.valueType.OtherValueType? && (p.TimeSeries? ==> p.entries != [])
  }

  function TimesOf(entries: seq<TimedValue>): (ts: seq<int>)
    ensures |ts| == |entries| && forall i :: 0 <= i < |entries| ==> ts[i] == entries[i].time
  {
    seq(|entries|, i requires 0 <= i < |entries| => entries[i].time)
  }

  function NumbersOf(entries: seq<TimedValue>): (xs: seq<real>)
    requires forall i :: 0 <= i < |entries| ==> entries[i].value.Number?
    ensures |xs| == |entries| && forall i :: 0 <= i < |entries| ==> xs[i] == entries[i].value.x
  {
    seq(|entries|, i requires 0 <= i < |entries| => entries[i].value.x)
  }

  function TextsOf(entries: seq<TimedValue>): (ss: seq<string>)
    requires forall i :: 0 <= i < |entries| ==> entries[i].value.Text?
    ensures |ss| == |entries| && forall i :: 0 <= i < |entries| ==> ss[i] == entries[i].value.s
  {
    seq(|entries|, i requires 0 <= i < |entries| => entries[i].value.s)
  }

  /** The time field of a non-empty series: the first time as start, every time as an offset
      from it. */
  function SaveTimes(entries: seq<TimedValue>): (tf: TimeField)
    requires entries != []
    ensures tf.start == Some(entries[0].time)
    ensures |tf.offsets| == |entries| && tf.offsets[0] == 0
    ensures forall i :: 0 <= i < |entries| ==> StartOf(tf) + tf.offsets[i] == entries[i].time
  {
    var t0 := entries[0].time;
    TimeField(seq(|entries|, i requires 0 <= i < |entries| => entries[i].time - t0), Some(t0))
  }

  /** Saves a property as a group: nothing for an unknown value type or an empty series; a
      single value without a time field; a series with one. */
  function Save(p: Property): (r: Option<LogGroup>)
    requires WellTyped(p)
    ensures r.Some? <==> Savable(p)
    ensures r.Some? ==> r.value.name == p.name
    ensures r.Some? ==> (r.value.time.Some? <==> p.TimeSeries?)
    ensures r.Some? ==> (r.value.value.nexusType == Char <==> p.valueType == StringType)
  {
    if p.valueType.OtherValueType? then None
    else
      match p
      case SingleValue(name, vt, v) =>
        if vt == StringType then Some(LogGroup(name, None, Field(Char, [|v.s|], [], v.s)))
        else Some(LogGroup(name, None, Field(NexusTypeOf(vt), [1], [v.x], "")))
      case TimeSeries(name, vt, entries) =>
        if entries == [] then None
        else if vt == StringType then
          var m := NexusStringRows.Pack(TextsOf(entries));
          Some(LogGroup(name, Some(SaveTimes(entries)), Field(Char, m.dims, [], m.data)))
        else
          Some(LogGroup(name, Some(SaveTimes(entries)), Field(NexusTypeOf(vt), [|entries|], NumbersOf(entries), "")))
  }

  /** Every text of a string property is free of NUL characters. */
  predicate NulFreeTexts(p: Property) {
    p.TimeSeries? && p.valueType == StringType ==>
      forall i :: 0 <= i < |p.entries| ==> p.entries[i].value.Text? && NexusStringRows.NulFree(p.entries[i].value.s)
  }

  /** A saved time field loads back as the series' own times. */
  lemma SavedTimesLoadBack(entries: seq<TimedValue>)
    requires entries != []
    ensures LoadTimes(Some(SaveTimes(entries))) == TimesOf(entries)
  {
    var ts := LoadTimes(Some(SaveTimes(entries)));
    forall i | 0 <= i < |entries|
      ensures ts[i] == entries[i].time
    {
    }
  }

  /** Saving then loading gives back the property, for every savable property whose strings
      hold no NUL. */
  lemma SaveLoadRoundTrip(p: Property)
    requires WellTyped(p) && Savable(p) && NulFreeTexts(p)
    ensures Save(p).Some? && Loadable(Save(p).value)
    ensures Load(Save(p).value) == Success(Some(p))
  {
    match p
    case SingleValue(name, vt, v) =>
      assert LoadTimes(Save(p).value.time) == [];
    case TimeSeries(name, vt, entries) =>
      if vt == StringType {
        StringSeriesRoundTrip(p);
      } else {
        NumericSeriesRoundTrip(p);
      }
  }

  lemma StringSeriesRoundTrip(p: Property)
    requires WellTyped(p) && Savable(p) && NulFreeTexts(p)
    requires p.TimeSeries? && p.valueType == StringType
    ensures Save(p).Some? && Loadable(Save(p).value)
    ensures Load(Save(p).value) == Success(Some(p))
  {
    var g := Save(p).value;
    SavedTimesLoadBack(p.entries);
    var texts := TextsOf(p.entries);
    NexusStringRows.PackUnpackAsWrittenRoundTrip(texts);
    NexusStringRows.CStringsOfNulFree(texts);
    var q := Load(g).value.value;
    assert q.entries == Pair(TimesOf(p.entries), Texts(texts));
    assert q.entries == p.entries;
  }

  lemma NumericSeriesRoundTrip(p: Property)
    requires WellTyped(p) && Savable(p)
    requires p.TimeSeries? && p.valueType != StringType
    ensures Save(p).Some? && Loadable(Save(p).value)
    ensures Load(Save(p).value) == Success(Some(p))
  {
    var g := Save(p).value;
    SavedTimesLoadBack(p.entries);
    var q := Load(g).value.value;
    assert q.entries == Pair(TimesOf(p.entries), Numbers(NumbersOf(p.entries)));
    assert q.entries == p.entries;
  }

  /** A group whose time field is empty loads as a single value, exactly as one without a time
      field does. */
  lemma EmptyTimeFieldIsSingleValue(g: LogGroup, start: Option<int>)
    requires g.time == Some(TimeField([], start)) && Loadable(g)
    ensures Loadable(g.(time := None))
    ensures Load(g) == Load(g.(time := None))
  {
  }
}

=== FILE: scanning_workspace_builder.dfy ===
/** `ScanningWorkspaceBuilder`: collects the settings of a detector-scan workspace (histogram,
    time ranges, per-detector positions or rotations or whole-instrument angles, indexing
    layout), validates each setter's input against the detector and time-index counts, and
    builds a workspace of `nDetectors * nTimeIndexes` spectra.

    A setter is a function from the builder to a `Result`: on `Failure` (a C++ `logic_error`)
    the caller keeps the builder it had, which is the C++ behaviour since every check runs
    before any member is assigned. Times are integer nanoseconds. */
module ScanningWorkspaceBuilder {
  import opened Wrappers

  datatype V3D = V3D(x: real, y: real, z: real)

  datatype Quat = Quat(w: real, a: real, b: real, c: real)

  /** A scan interval, start and end in nanoseconds. */
  datatype TimeRange = TimeRange(start: int, end: int)

  datatype Histogram = Histogram(binEdges: seq<real>, counts: seq<real>)

  datatype IndexingType = Default | TimeOriented | DetectorOriented

  /** The builder's members; the instrument is represented by its detector count. */
  datatype Builder = Builder(
    nDetectors: nat,
    nTimeIndexes: nat,
    nBins: nat,
    histogram: Histogram,
    timeRanges: seq<TimeRange>,
    positions: seq<seq<V3D>>,
    rotations: seq<seq<Quat>>,
    instrumentAngles: seq<real>,
    rotationPosition: V3D,
    rotationAxis: V3D,
    indexingType: IndexingType)

  /** Every error is a `std::logic_error`; the constructor names which check failed. */
  datatype Error =
    | HistogramSizeMismatch
    | TimeIndexSizeMismatch(description: string)
    | DetectorSizeMismatch(description: string)
    | PositionsAlreadySet
    | RotationsAlreadySet
    | PositionsOrRotationsAlreadySet
    | IndexingTypeAlreadySet
    | TimeRangesNotSet

  /** One (detector, time index) pair of a spectrum definition. */
  datatype ScanIndex = ScanIndex(detector: nat, time: nat)

  /** The detector scan indices one spectrum is made of. */
  type SpectrumDefinition = seq<ScanIndex>

  /** The index information of the built workspace: its size and, when the layout is chosen
      explicitly, one spectrum definition per spectrum (`None` leaves the framework default). */
  datatype IndexInfo = IndexInfo(size: nat, definitions: Option<seq<SpectrumDefinition>>)

  /** What `buildWorkspace` produces, as far as this model follows it. */
  datatype Workspace = Workspace(
    nSpectra: nat,
    histogram: Histogram,
    scanIntervals: seq<TimeRange>,
    positions: seq<seq<V3D>>,
    rotations: seq<seq<Quat>>,
    instrumentAngles: seq<real>,
    indexInfo: IndexInfo)

  /** The invariant every builder reachable through the public interface keeps. */
  predicate Valid(b: Builder) {
    && |b.histogram.counts| == b.nBins
    && |b.histogram.binEdges| == b.nBins + 1
    && (|b.timeRanges| == 0 || |b.timeRanges| == b.nTimeIndexes)
    && (|b.positions| == 0 || ScanShaped(b.positions, b.nDetectors, b.nTimeIndexes))
    && (|b.rotations| == 0 || ScanShaped(b.rotations, b.nDetectors, b.nTimeIndexes))
    && (|b.instrumentAngles| == 0 || |b.instrumentAngles| == b.nTimeIndexes)
    && !(|b.positions| > 0 && |b.instrumentAngles| > 0)
    && !(|b.rotations| > 0 && |b.instrumentAngles| > 0)
  }

  /** One inner vector per detector, each holding one entry per time index. */
  predicate ScanShaped<T>(v: seq<seq<T>>, nDetectors: nat, nTimeIndexes: nat) {
    |v| == nDetectors && forall i :: 0 <= i < |v| ==> |v[i]| == nTimeIndexes
  }

  /** The constructor: bin edges 1, 2, ..., nBins + 1, zero counts, nothing else set. */
  function New(nDetectors: nat, nTimeIndexes: nat, nBins: nat): (b: Builder)
    ensures Valid(b)
    ensures b.nDetectors == nDetectors && b.nTimeIndexes == nTimeIndexes && b.nBins == nBins
    ensures b.indexingType == Default
    ensures forall i :: 0 <= i < |b.histogram.binEdges| ==> b.histogram.binEdges[i] == (i + 1) as real
    ensures forall i :: 0 <= i < |b.histogram.counts| ==> b.histogram.counts[i] == 0.0
    ensures b.timeRanges == [] && b.positions == [] && b.rotations == [] && b.instrumentAngles == []
  {
    Builder(
      nDetectors, nTimeIndexes, nBins,
      Histogram(seq(nBins + 1, i => (i + 1) as real), seq(nBins, i => 0.0)),
      [], [], [], [], V3D(0.0, 0.0, 0.0), V3D(0.0, 0.0, 0.0), Default)
  }

  /** `verifyTimeIndexSize`. */
  function VerifyTimeIndexSize(b: Builder, size: nat, description: string): (r: Result<(), Error>)
    ensures r.Success? <==> size == b.nTimeIndexes
    ensures r.Failure? ==> r.error == TimeIndexSizeMismatch(description)
  {
    if size != b.nTimeIndexes then Failure(TimeIndexSizeMismatch(description)) else Success(())
  }

  /** `verifyDetectorSize`. */
  function VerifyDetectorSize(b: Builder, size: nat, description: string): (r: Result<(), Error>)
    ensures r.Success? <==> size == b.nDetectors
    ensures r.Failure? ==> r.error == DetectorSizeMismatch(description)
  {
    if size != b.nDetectors then Failure(DetectorSizeMismatch(description)) else Success(())
  }

  /** `setHistogram`: accepted only with `nBins` counts and `nBins + 1` bin edges. */
  function SetHistogram(b: Builder, h: Histogram): (r: Result<Builder, Error>)
    ensures r.Success? <==> |h.counts| == b.nBins && |h.binEdges| == b.nBins + 1
    ensures r.Success? ==> r.value == b.(histogram := h)
    ensures r.Failure? ==> r.error == HistogramSizeMismatch
  {
    if |h.counts| != b.nBins || |h.binEdges| != b.nBins + 1 then Failure(HistogramSizeMismatch)
    else Success(b.(histogram := h))
  }

  /** `setTimeRanges` from (start, end) pairs. */
  function SetTimeRanges(b: Builder, timeRanges: seq<TimeRange>): (r: Result<Builder, Error>)
    ensures r.Success? <==> |timeRanges| == b.nTimeIndexes
    ensures r.Success? ==> r.value == b.(timeRanges := timeRanges)
    ensures r.Failure? ==> r.error == TimeIndexSizeMismatch("start time, end time pairs")
  {
    var _ :- VerifyTimeIndexSize(b, |timeRanges|, "start time, end time pairs");
    Success(b.(timeRanges := timeRanges))
  }

  /** Back-to-back ranges: the first starts at `start`, each next one starts where the
      previous one ended, and each lasts its duration. */
  function ContiguousRanges(start: int, durations: seq<int>): (r: seq<TimeRange>)
    decreases |durations|
    ensures |r| == |durations|
    ensures |r| > 0 ==> r[0].start == start
    ensures forall i :: 0 < i < |r| ==> r[i].start == r[i - 1].end
    ensures forall i :: 0 <= i < |r| ==> r[i].end == r[i].start + durations[i]
  {
    if durations == [] then []
    else [TimeRange(start, start + durations[0])] + ContiguousRanges(start + durations[0], durations[1..])
  }

  /** Sum of a sequence of durations. */
  function Sum(xs: seq<int>): int {
    if xs == [] then 0 else Sum(xs[..|xs| - 1]) + xs[|xs| - 1]
  }

  /** Range `i` of the contiguous layout ends after the first `i + 1` durations have elapsed. */
  lemma {:induction false} ContiguousRangesEndAtPrefixSums(start: int, durations: seq<int>, i: nat)
    requires i < |durations|
    ensures ContiguousRanges(start, durations)[i].end == start + Sum(durations[..i + 1])
  {
    var r := ContiguousRanges(start, durations);
    if i > 0 {
      ContiguousRangesEndAtPrefixSums(start, durations, i - 1);
      assert durations[..i + 1][..i] == durations[..i];
    } else {
      assert durations[..1] == [durations[0]];
      assert Sum(durations[..1]) == Sum([]) + durations[0];
    }
  }

  /** `setTimeRanges` from a start time and one duration per time index. The C++ code reads
      the first duration unconditionally once the size check has passed, so with zero time
      indexes (and so zero durations) it reads past the end of the vector. */
  function SetTimeRangesFromDurations(b: Builder, startTime: int, durations: seq<int>): (r: Result<Builder, Error>)
    requires |durations| == b.nTimeIndexes ==> b.nTimeIndexes >= 1
    ensures r.Success? <==> |durations| == b.nTimeIndexes
    ensures r.Failure? ==> r.error == TimeIndexSizeMismatch("time durations")
    ensures r.Success? ==> r.value == b.(timeRanges := r.value.timeRanges)
    ensures r.Success? ==> var ranges := r.value.timeRanges;
              && |ranges| == b.nTimeIndexes
              && ranges[0].start == startTime
              && (forall i :: 0 < i < |ranges| ==> ranges[i].start == ranges[i - 1].end)
              && (forall i :: 0 <= i < |ranges| ==> ranges[i].end == ranges[i].start + durations[i])
  {
    var _ :- VerifyTimeIndexSize(b, |durations|, "time durations");
    SetTimeRanges(b, ContiguousRanges(startTime, durations))
  }

  /** Every inner vector holds one entry per time index. */
  predicate AllTimeIndexed<T>(v: seq<seq<T>>, nTimeIndexes: nat) {
    forall i :: 0 <= i < |v| ==> |v[i]| == nTimeIndexes
  }

  /** `setPositions`: refused once positions or instrument angles are set, then every inner
      vector must have one entry per time index, then the outer vector one per detector. */
  function SetPositions(b: Builder, positions: seq<seq<V3D>>): (r: Result<Builder, Error>)
    ensures r.Success? <==>
              |b.positions| == 0 && |b.instrumentAngles| == 0 && ScanShaped(positions, b.nDetectors, b.nTimeIndexes)
    ensures r.Success? ==> r.value == b.(positions := positions)
    ensures |b.positions| > 0 || |b.instrumentAngles| > 0 ==> r == Failure(PositionsAlreadySet)
  {
    if |b.positions| > 0 || |b.instrumentAngles| > 0 then Failure(PositionsAlreadySet)
    else if !AllTimeIndexed(positions, b.nTimeIndexes) then Failure(TimeIndexSizeMismatch("positions"))
    else
      var _ :- VerifyDetectorSize(b, |positions|, "positions");
      Success(b.(positions := positions))
  }

  /** `setRotations`: refused once rotations or instrument angles are set; same shape checks. */
  function SetRotations(b: Builder, rotations: seq<seq<Quat>>): (r: Result<Builder, Error>)
    ensures r.Success? <==>
              |b.rotations| == 0 && |b.instrumentAngles| == 0 && ScanShaped(rotations, b.nDetectors, b.nTimeIndexes)
    ensures r.Success? ==> r.value == b.(rotations := rotations)
    ensures |b.rotations| > 0 || |b.instrumentAngles| > 0 ==> r == Failure(RotationsAlreadySet)
  {
    if |b.rotations| > 0 || |b.instrumentAngles| > 0 then Failure(RotationsAlreadySet)
    else if !AllTimeIndexed(rotations, b.nTimeIndexes) then Failure(TimeIndexSizeMismatch("rotations"))
    else
      var _ :- VerifyDetectorSize(b, |rotations|, "rotations");
      Success(b.(rotations := rotations))
  }

  /** `setRelativeRotationsForScans`: refused once positions or rotations are set; one angle
      per time index. Setting angles twice is allowed. */
  function SetRelativeRotationsForScans(b: Builder, instrumentAngles: seq<real>, rotationPosition: V3D, rotationAxis: V3D)
    : (r: Result<Builder, Error>)
    ensures r.Success? <==> |b.positions| == 0 && |b.rotations| == 0 && |instrumentAngles| == b.nTimeIndexes
    ensures r.Success? ==>
              r.value == b.(instrumentAngles := instrumentAngles, rotationPosition := rotationPosition, rotationAxis := rotationAxis)
    ensures |b.positions| > 0 || |b.rotations| > 0 ==> r == Failure(PositionsOrRotationsAlreadySet)
  {
    if |b.positions| > 0 || |b.rotations| > 0 then Failure(PositionsOrRotationsAlreadySet)
    else
      var _ :- VerifyTimeIndexSize(b, |instrumentAngles|, "instrument angles");
      Success(b.(instrumentAngles := instrumentAngles, rotationPosition := rotationPosition, rotationAxis := rotationAxis))
  }

  /** `setIndexingType`: only a builder still on the Default layout accepts a new one. */
  function SetIndexingType(b: Builder, indexingType: IndexingType): (r: Result<Builder, Error>)
    ensures r.Success? <==> b.indexingType == Default
    ensures r.Success? ==> r.value == b.(indexingType := indexingType)
    ensures r.Failure? ==> r.error == IndexingTypeAlreadySet
  {
    if b.indexingType != Default then Failure(IndexingTypeAlreadySet) else Success(b.(indexingType := indexingType))
  }

  /** `validateInputs`: time ranges must have been set (to a non-empty vector). */
  function ValidateInputs(b: Builder): (r: Result<(), Error>)
    ensures r.Success? <==> |b.timeRanges| > 0
    ensures r.Failure? ==> r.error == TimeRangesNotSet
  {
    if |b.timeRanges| == 0 then Failure(TimeRangesNotSet) else Success(())
  }

  /** Spectrum position of (detector, time index) in the time-oriented layout. */
  function TimeOrientedIndex(detector: nat, time: nat, nTimeIndexes: nat): nat {
    detector * nTimeIndexes + time
  }

  /** Spectrum position of (detector, time index) in the detector-oriented layout. */
  function DetectorOrientedIndex(detector: nat, time: nat, nDetectors: nat): nat {
    time * nDetectors + detector
  }

  lemma Distribute(a: int, b: int, c: int)
    ensures (a + b) * c == a * c + b * c
  {
  }

  lemma MulMonotone(a: nat, b: nat, width: nat)
    requires a <= b
    ensures a * width <= b * width
  {
    Distribute(a, b - a, width);
  }

  /** Euclidean division recovers the row and the column of a row-major position. */
  lemma RowMajorDivMod(row: nat, col: nat, width: nat)
    requires col < width
    ensures (row * width + col) / width == row
    ensures (row * width + col) % width == col
  {
    var s := row * width + col;
    var q := s / width;
    var m := s % width;
    assert s == q * width + m;
    if q < row {
      MulMonotone(q + 1, row, width);
      Distribute(q, 1, width);
    } else if q > row {
      MulMonotone(row + 1, q, width);
      Distribute(row, 1, width);
    }
  }

  /** A row-major position of a cell inside a `rows` by `width` grid lies inside the grid. */
  lemma RowMajorInRange(row: nat, col: nat, rows: nat, width: nat)
    requires row < rows && col < width
    ensures row * width + col < rows * width
  {
    Distribute(row, 1, width);
    MulMonotone(row + 1, rows, width);
  }

  /** A position inside a `rows` by `width` grid splits into an in-range row and column. */
  lemma SplitRowMajor(s: nat, rows: nat, width: nat)
    requires width > 0 && s < rows * width
    ensures s / width < rows
  {
    if s / width >= rows {
      MulMonotone(rows, s / width, width);
    }
  }

  /** The spectrum layout in which detector `d`'s time index `t` sits at `d * nTime + t`. */
  function TimeOrientedDefinitions(nDetectors: nat, nTimeIndexes: nat): (defs: seq<SpectrumDefinition>)
    ensures |defs| == nDetectors * nTimeIndexes
    ensures forall d, t :: 0 <= d < nDetectors && 0 <= t < nTimeIndexes ==>
              TimeOrientedIndex(d, t, nTimeIndexes) < |defs| && defs[TimeOrientedIndex(d, t, nTimeIndexes)] == [ScanIndex(d, t)]
  {
    if nTimeIndexes == 0 then []
    else
      var defs := seq(nDetectors * nTimeIndexes, s requires 0 <= s => [ScanIndex(s / nTimeIndexes, s % nTimeIndexes)]);
      assert forall d, t :: 0 <= d < nDetectors && 0 <= t < nTimeIndexes ==>
               TimeOrientedIndex(d, t, nTimeIndexes) < |defs| && defs[TimeOrientedIndex(d, t, nTimeIndexes)] == [ScanIndex(d, t)] by {
        forall d, t | 0 <= d < nDetectors && 0 <= t < nTimeIndexes
          ensures TimeOrientedIndex(d, t, nTimeIndexes) < |defs| && defs[TimeOrientedIndex(d, t, nTimeIndexes)] == [ScanIndex(d, t)]
        {
          RowMajorInRange(d, t, nDetectors, nTimeIndexes);
          RowMajorDivMod(d, t, nTimeIndexes);
        }
      }
      defs
  }

  /** The spectrum layout in which detector `d`'s time index `t` sits at `t * nDet + d`. */
  function DetectorOrientedDefinitions(nDetectors: nat, nTimeIndexes: nat): (defs: seq<SpectrumDefinition>)
    ensures |defs| == nDetectors * nTimeIndexes
    ensures forall d, t :: 0 <= d < nDetectors && 0 <= t < nTimeIndexes ==>
              DetectorOrientedIndex(d, t, nDetectors) < |defs| && defs[DetectorOrientedIndex(d, t, nDetectors)] == [ScanIndex(d, t)]
  {
    if nDetectors == 0 then []
    else
      var defs := seq(nDetectors * nTimeIndexes, s requires 0 <= s => [ScanIndex(s % nDetectors, s / nDetectors)]);
      assert forall d, t :: 0 <= d < nDetectors && 0 <= t < nTimeIndexes ==>
               DetectorOrientedIndex(d, t, nDetectors) < |defs| && defs[DetectorOrientedIndex(d, t, nDetectors)] == [ScanIndex(d, t)] by {
        forall d, t | 0 <= d < nDetectors && 0 <= t < nTimeIndexes
          ensures DetectorOrientedIndex(d, t, nDetectors) < |defs| && defs[DetectorOrientedIndex(d, t, nDetectors)] == [ScanIndex(d, t)]
        {
          RowMajorInRange(t, d, nTimeIndexes, nDetectors);
          assert nTimeIndexes * nDetectors == nDetectors * nTimeIndexes;
          RowMajorDivMod(t, d, nDetectors);
        }
      }
      defs
  }

  /** A layout of `nDet * nTime` spectra that is a bijection onto the scan indices: each
      spectrum holds exactly one in-range (detector, time) pair, no two spectra hold the same
      pair, and every pair is held by some spectrum. */
  ghost predicate BijectiveLayout(defs: seq<SpectrumDefinition>, nDetectors: nat, nTimeIndexes: nat) {
    && |defs| == nDetectors * nTimeIndexes
    && (forall s :: 0 <= s < |defs| ==>
          |defs[s]| == 1 && defs[s][0].detector < nDetectors && defs[s][0].time < nTimeIndexes)
    && (forall s, s' :: 0 <= s < |defs| && 0 <= s' < |defs| && s != s' ==> defs[s] != defs[s'])
    && (forall d: nat, t: nat :: d < nDetectors && t < nTimeIndexes ==> HeldBySomeSpectrum(defs, d, t))
  }

  /** Some spectrum of the layout consists of exactly the scan index (d, t). */
  ghost predicate HeldBySomeSpectrum(defs: seq<SpectrumDefinition>, d: nat, t: nat) {
    exists s :: 0 <= s < |defs| && defs[s] == [ScanIndex(d, t)]
  }

  lemma TimeOrientedLayoutIsBijective(nDetectors: nat, nTimeIndexes: nat)
    ensures BijectiveLayout(TimeOrientedDefinitions(nDetectors, nTimeIndexes), nDetectors, nTimeIndexes)
  {
    var defs: seq<SpectrumDefinition> := TimeOrientedDefinitions(nDetectors, nTimeIndexes);
    if nTimeIndexes > 0 {
      forall s: int | 0 <= s < |defs|
        ensures |defs[s]| == 1 && defs[s][0].detector < nDetectors && defs[s][0].time < nTimeIndexes
      {
        SplitRowMajor(s, nDetectors, nTimeIndexes);
      }
      forall s: int, s': int | 0 <= s < |defs| && 0 <= s' < |defs| && s != s'
        ensures defs[s] != defs[s']
      {
        RowMajorSplitIsInjective(s, s', nTimeIndexes);
      }
    }
    forall d: nat, t: nat | d < nDetectors && t < nTimeIndexes
      ensures HeldBySomeSpectrum(defs, d, t)
    {
      var s := TimeOrientedIndex(d, t, nTimeIndexes);
      assert 0 <= s < |defs| && defs[s] == [ScanIndex(d, t)];
    }
  }

  lemma DetectorOrientedLayoutIsBijective(nDetectors: nat, nTimeIndexes: nat)
    ensures BijectiveLayout(DetectorOrientedDefinitions(nDetectors, nTimeIndexes), nDetectors, nTimeIndexes)
  {
    var defs: seq<SpectrumDefinition> := DetectorOrientedDefinitions(nDetectors, nTimeIndexes);
    if nDetectors > 0 {
      forall s: int | 0 <= s < |defs|
        ensures |defs[s]| == 1 && defs[s][0].detector < nDetectors && defs[s][0].time < nTimeIndexes
      {
        assert nDetectors * nTimeIndexes == nTimeIndexes * nDetectors;
        SplitRowMajor(s, nTimeIndexes, nDetectors);
      }
      forall s: int, s': int | 0 <= s < |defs| && 0 <= s' < |defs| && s != s'
        ensures defs[s] != defs[s']
      {
        RowMajorSplitIsInjective(s, s', nDetectors);
      }
    }
    forall d: nat, t: nat | d < nDetectors && t < nTimeIndexes
      ensures HeldBySomeSpectrum(defs, d, t)
    {
      var s := DetectorOrientedIndex(d, t, nDetectors);
      assert 0 <= s < |defs| && defs[s] == [ScanIndex(d, t)];
    }
  }

  /** Distinct positions have distinct (row, column) pairs. */
  lemma RowMajorSplitIsInjective(s: nat, s': nat, width: nat)
    requires width > 0 && s != s'
    ensures s / width != s' / width || s % width != s' % width
  {
  }

  /** The two layouts hold the same scan indices, permuted: spectrum `d * nTime + t` of one is
      spectrum `t * nDet + d` of the other. */
  lemma LayoutsArePermutations(nDetectors: nat, nTimeIndexes: nat, d: nat, t: nat)
    requires d < nDetectors && t < nTimeIndexes
    ensures TimeOrientedIndex(d, t, nTimeIndexes) < nDetectors * nTimeIndexes
    ensures DetectorOrientedIndex(d, t, nDetectors) < nDetectors * nTimeIndexes
    ensures TimeOrientedDefinitions(nDetectors, nTimeIndexes)[TimeOrientedIndex(d, t, nTimeIndexes)]
         == DetectorOrientedDefinitions(nDetectors, nTimeIndexes)[DetectorOrientedIndex(d, t, nDetectors)]
  {
    var byTime := TimeOrientedDefinitions(nDetectors, nTimeIndexes);
    var byDetector := DetectorOrientedDefinitions(nDetectors, nTimeIndexes);
    assert byTime[TimeOrientedIndex(d, t, nTimeIndexes)] == [ScanIndex(d, t)];
    assert byDetector[DetectorOrientedIndex(d, t, nDetectors)] == [ScanIndex(d, t)];
  }

  /** The index information `buildWorkspace` installs for the chosen layout. */
  function BuildIndexInfo(b: Builder): (info: IndexInfo)
    ensures info.size == b.nDetectors * b.nTimeIndexes
    ensures b.indexingType == Default <==> info.definitions.None?
    ensures info.definitions.Some? ==> BijectiveLayout(info.definitions.value, b.nDetectors, b.nTimeIndexes)
    ensures b.indexingType == TimeOriented ==> info.definitions == Some(TimeOrientedDefinitions(b.nDetectors, b.nTimeIndexes))
    ensures b.indexingType == DetectorOriented ==>
              info.definitions == Some(DetectorOrientedDefinitions(b.nDetectors, b.nTimeIndexes))
  {
    var n := b.nDetectors * b.nTimeIndexes;
    match b.indexingType
    case Default => IndexInfo(n, None)
    case TimeOriented =>
      TimeOrientedLayoutIsBijective(b.nDetectors, b.nTimeIndexes);
      IndexInfo(n, Some(TimeOrientedDefinitions(b.nDetectors, b.nTimeIndexes)))
    case DetectorOriented =>
      DetectorOrientedLayoutIsBijective(b.nDetectors, b.nTimeIndexes);
      IndexInfo(n, Some(DetectorOrientedDefinitions(b.nDetectors, b.nTimeIndexes)))
  }

  /** `buildWorkspace`: fails unless time ranges were set; otherwise a workspace of
      `nDetectors * nTimeIndexes` spectra sharing the builder's histogram, every detector scanned
      over the builder's time ranges, and the chosen index layout. */
  function BuildWorkspace(b: Builder): (r: Result<Workspace, Error>)
    ensures r.Failure? <==> |b.timeRanges| == 0
    ensures r.Failure? ==> r.error == TimeRangesNotSet
    ensures r.Success? ==> var ws := r.value;
              && ws.nSpectra == b.nDetectors * b.nTimeIndexes
              && ws.indexInfo.size == ws.nSpectra
              && ws.histogram == b.histogram
              && ws.scanIntervals == b.timeRanges
              && ws.positions == b.positions
              && ws.rotations == b.rotations
              && ws.instrumentAngles == b.instrumentAngles
              && ws.indexInfo == BuildIndexInfo(b)
              && (b.indexingType != Default ==> ws.indexInfo.definitions.Some? && BijectiveLayout(ws.indexInfo.definitions.value, b.nDetectors, b.nTimeIndexes))
  {
    var _ :- ValidateInputs(b);
    Success(Workspace(
      b.nDetectors * b.nTimeIndexes, b.histogram, b.timeRanges,
      b.positions, b.rotations, b.instrumentAngles, BuildIndexInfo(b)))
  }

  /** A fresh builder is valid, its own histogram passes `setHistogram`, and it cannot be
      built before time ranges are set. */
  lemma FreshBuilder(nDetectors: nat, nTimeIndexes: nat, nBins: nat)
    ensures var b := New(nDetectors, nTimeIndexes, nBins);
            && SetHistogram(b, b.histogram) == Success(b)
            && BuildWorkspace(b) == Failure(TimeRangesNotSet)
  {
  }

  /** Every setter keeps the builder invariant. */
  lemma SettersPreserveValid(b: Builder, h: Histogram, ranges: seq<TimeRange>, startTime: int, durations: seq<int>,
                             positions: seq<seq<V3D>>, rotations: seq<seq<Quat>>, angles: seq<real>,
                             rotationPosition: V3D, rotationAxis: V3D, indexingType: IndexingType)
    requires Valid(b)
    requires |durations| == b.nTimeIndexes ==> b.nTimeIndexes >= 1
    ensures SetHistogram(b, h).Success? ==> Valid(SetHistogram(b, h).value)
    ensures SetTimeRanges(b, ranges).Success? ==> Valid(SetTimeRanges(b, ranges).value)
    ensures SetTimeRangesFromDurations(b, startTime, durations).Success? ==>
              Valid(SetTimeRangesFromDurations(b, startTime, durations).value)
    ensures SetPositions(b, positions).Success? ==> Valid(SetPositions(b, positions).value)
    ensures SetRotations(b, rotations).Success? ==> Valid(SetRotations(b, rotations).value)
    ensures SetRelativeRotationsForScans(b, angles, rotationPosition, rotationAxis).Success? ==>
              Valid(SetRelativeRotationsForScans(b, angles, rotationPosition, rotationAxis).value)
    ensures SetIndexingType(b, indexingType).Success? ==> Valid(SetIndexingType(b, indexingType).value)
  {
  }

  /** Positions and rotations may both be set; once either is set (non-empty), instrument
      angles are refused, and once angles are set, positions and rotations are refused. */
  lemma PositionsRotationsAnglesExclusion(b: Builder, positions: seq<seq<V3D>>, rotations: seq<seq<Quat>>,
                                          angles: seq<real>, rotationPosition: V3D, rotationAxis: V3D)
    requires Valid(b) && b.positions == [] && b.rotations == [] && b.instrumentAngles == []
    requires ScanShaped(positions, b.nDetectors, b.nTimeIndexes) && |positions| > 0
    requires ScanShaped(rotations, b.nDetectors, b.nTimeIndexes)
    requires |angles| == b.nTimeIndexes && |angles| > 0
    ensures var withPositions := SetPositions(b, positions);
            && withPositions.Success?
            && SetRotations(withPositions.value, rotations).Success?
            && SetRelativeRotationsForScans(withPositions.value, angles, rotationPosition, rotationAxis).Failure?
    ensures var withAngles := SetRelativeRotationsForScans(b, angles, rotationPosition, rotationAxis);
            && withAngles.Success?
            && SetPositions(withAngles.value, positions) == Failure(PositionsAlreadySet)
            && SetRotations(withAngles.value, rotations) == Failure(RotationsAlreadySet)
  {
  }

  /** The indexing type can be chosen once: after a non-Default choice every further call fails. */
  lemma IndexingTypeSetOnce(b: Builder, first: IndexingType, second: IndexingType)
    requires b.indexingType == Default && first != Default
    ensures SetIndexingType(b, first).Success?
    ensures SetIndexingType(SetIndexingType(b, first).value, second) == Failure(IndexingTypeAlreadySet)
  {
  }

  /** Once contiguous ranges are set from durations, the workspace can be built, and its scan
      intervals run back to back from the start time to the start time plus all durations. */
  lemma BuildAfterDurations(b: Builder, startTime: int, durations: seq<int>)
    requires |durations| == b.nTimeIndexes && b.nTimeIndexes >= 1
    ensures var withRanges := SetTimeRangesFromDurations(b, startTime, durations);
            && withRanges.Success?
            && BuildWorkspace(withRanges.value).Success?
            && var intervals := BuildWorkspace(withRanges.value).value.scanIntervals;
               intervals[0].start == startTime && intervals[|intervals| - 1].end == startTime + Sum(durations)
  {
    var ranges := ContiguousRanges(startTime, durations);
    var withRanges := SetTimeRangesFromDurations(b, startTime, durations);
    assert withRanges.value.timeRanges == ranges;
    ContiguousRangesEndAtPrefixSums(startTime, durations, |durations| - 1);
    assert durations[..|durations|] == durations;
    assert ranges[|ranges| - 1].end == startTime + Sum(durations);
  }
}

=== FILE: sofqw2.dfy ===
/** The configuration logic of the S(Q, w) rebinning algorithm: resolving the energy mode and
    the fixed energy, choosing which spectra take part, and caching their scattering angles.

    The run's "Ei" log and each spectrum's detector are parameters; the Q formulas, the polygon
    rebinning and the angular width are outside the model. */
module SofQW2 {
  import opened Wrappers

  /** The energy mode, held by the algorithm as 0, 1 or 2. */
  datatype EMode = Elastic | Direct | Indirect

  /** The integer the algorithm stores for a mode: 0 elastic, 1 direct, 2 indirect. */
  function EModeCode(m: EMode): (code: int)
    ensures code == 0 <==> m == Elastic
    ensures code == 1 <==> m == Direct
    ensures code == 2 <==> m == Indirect
  {
    match m
    case Elastic => 0
    case Direct => 1
    case Indirect => 2
  }

  /** The mode a property text selects: only the exact words "Direct" and "Indirect" select a
      mode; anything else is the elastic code 0. */
  function EModeFromString(text: string): (m: EMode)
    ensures m == Direct <==> text == "Direct"
    ensures m == Indirect <==> text == "Indirect"
    ensures EModeCode(m) == if text == "Direct" then 1 else if text == "Indirect" then 2 else 0
  {
    if text == "Direct" then Direct
    else if text == "Indirect" then Indirect
    else Elastic
  }

  /** The run's "Ei" log: absent, a double, or a log of another type. */
  datatype EiLog = NoEi | EiDouble(ei: real) | EiOfOtherType

  /** The resolved mode, the fixed energy, and whether the caller supplied it. */
  datatype Settings = Settings(emode: EMode, efixed: real, efixedGiven: bool)

  /** A detector as far as this algorithm looks at it: its name, whether it is a monitor, its
      "EFixed" parameter values, and its scattering angle in radians. */
  datatype Detector = Detector(name: string, isMonitor: bool, efixedParameter: seq<real>, twoTheta: real)

  /** A spectrum and the detector behind it, `None` when the lookup finds none. */
  datatype Spectrum = Spectrum(detector: Option<Detector>)

  datatype Error =
    | EiNotDouble
    | NoEFixedAvailable
    | MissingEFixedParameter(component: string)
    | NoCommonBinning

  datatype ExceptionClass = RuntimeError | InvalidArgument

  function ClassOf(e: Error): ExceptionClass {
    match e
    case EiNotDouble => RuntimeError
    case NoEFixedAvailable => InvalidArgument
    case MissingEFixedParameter(_) => RuntimeError
    case NoCommonBinning => InvalidArgument
  }

  /** Resolves the mode and fixed energy from the "EMode" and "EFixed" properties. In direct
      mode a zero EFixed is replaced by the run's "Ei", which must be a double and must exist;
      a nonzero EFixed counts as supplied in every mode. */
  function ResolveSettings(emodeText: string, efixed: real, ei: EiLog): (r: Result<Settings, Error>)
    ensures r.Failure? <==> EModeFromString(emodeText) == Direct && efixed == 0.0 && !ei.EiDouble?
    ensures r.Failure? ==> (r.error == EiNotDouble <==> ei.EiOfOtherType?)
    ensures r.Failure? ==> (r.error == NoEFixedAvailable <==> ei.NoEi?)
    ensures r.Success? ==> r.value.emode == EModeFromString(emodeText)
    ensures r.Success? ==> (r.value.efixedGiven <==> efixed != 0.0)
    ensures r.Success? && r.value.efixedGiven ==> r.value.efixed == efixed
    ensures r.Success? && r.value.emode == Direct && efixed == 0.0 ==> r.value.efixed == ei.ei
  {
    var mode := EModeFromString(emodeText);
    if mode == Direct && efixed == 0.0 then
      match ei
      case EiDouble(e) => Success(Settings(mode, e, false))
      case EiOfOtherType => Failure(EiNotDouble)
      case NoEi => Failure(NoEFixedAvailable)
    else
      Success(Settings(mode, efixed, efixed != 0.0))
  }

  /** The fixed energy for a detector: the resolved value in direct mode or when supplied, else
      the detector's first "EFixed" parameter, whose absence is an error. */
  function GetEFixed(s: Settings, det: Detector): (r: Result<real, Error>)
    ensures r.Failure? <==> s.emode != Direct && !s.efixedGiven && det.efixedParameter == []
    ensures r.Failure? ==> r.error == MissingEFixedParameter(det.name)
    ensures r.Success? && (s.emode == Direct || s.efixedGiven) ==> r.value == s.efixed
    ensures r.Success? && s.emode != Direct && !s.efixedGiven ==> r.value == det.efixedParameter[0]
  {
    if s.emode == Direct then Success(s.efixed)
    else if s.efixedGiven then Success(s.efixed)
    else if det.efixedParameter == [] then Failure(MissingEFixedParameter(det.name))
    else Success(det.efixedParameter[0])
  }

  /** A spectrum takes part when it has a detector, that detector's fixed energy resolves, and
      it is not a monitor. */
  predicate Usable(s: Settings, sp: Spectrum) {
    sp.detector.Some? && GetEFixed(s, sp.detector.value).Success? && !sp.detector.value.isMonitor
  }

  function CountUsable(s: Settings, spectra: seq<Spectrum>): (n: nat)
    ensures n <= |spectra|
  {
    if spectra == [] then 0
    else CountUsable(s, spectra[..|spectra| - 1]) + (if Usable(s, spectra[|spectra| - 1]) then 1 else 0)
  }

  /** The largest finite double, 2^1024 - 2^971, the starting point of the angle bounds. */
  const DblMax: real := 179769313486231570814527423731704356798070567525844996598917476803157260780028538760589558632766878171540458953514382464234321326889464182768467546703537516986049910576551282076245490090389328944075868508455133942304583236903222948165808559332123348274797826204144723168738177180919299881250404026184124858368.0

  datatype Bounds = Bounds(lo: real, hi: real)

  const NoBounds: Bounds := Bounds(DblMax, -DblMax)

  /** Bounds tracking as written: an angle that lowers the minimum is never compared with the
      maximum. */
  function TrackAsWritten(b: Bounds, theta: real): (r: Bounds)
    ensures r.lo <= b.lo && r.hi >= b.hi
    ensures theta < b.lo ==> r == Bounds(theta, b.hi)
    ensures b.lo <= theta && b.hi < theta ==> r == Bounds(b.lo, theta)
    ensures b.lo <= theta <= b.hi ==> r == b
  {
    if theta < b.lo then b.(lo := theta)
    else if theta > b.hi then b.(hi := theta)
    else b
  }

  /** Bounds tracking with both comparisons made: the new bounds take in the angle. */
  function Track(b: Bounds, theta: real): (r: Bounds)
    ensures r.lo <= theta <= r.hi
    ensures r.lo <= b.lo && r.hi >= b.hi
    ensures (r.lo == b.lo || r.lo == theta) && (r.hi == b.hi || r.hi == theta)
  {
    var lo := if theta < b.lo then theta else b.lo;
    var hi := if theta > b.hi then theta else b.hi;
    Bounds(lo, hi)
  }

  function FoldAsWritten(thetas: seq<real>): Bounds {
    if thetas == [] then NoBounds else TrackAsWritten(FoldAsWritten(thetas[..|thetas| - 1]), thetas[|thetas| - 1])
  }

  function Fold(thetas: seq<real>): Bounds {
    if thetas == [] then NoBounds else Track(Fold(thetas[..|thetas| - 1]), thetas[|thetas| - 1])
  }

  /** Angles sorted downwards leave the maximum as written at its starting value: for the angles
      2 and 1 it stays -DBL_MAX, below both, while the corrected tracking gives 1 and 2. */
  lemma DescendingAnglesMissMaximum()
    ensures FoldAsWritten([2.0, 1.0]) == Bounds(1.0, -DblMax)
    ensures FoldAsWritten([2.0, 1.0]).hi < 1.0
    ensures Fold([2.0, 1.0]) == Bounds(1.0, 2.0)
  {
  }

  /** The fold of the corrected tracking covers every angle and is reached by the smallest and
      the largest; with no angles it is the starting bounds. */
  lemma {:induction false} FoldCoversAngles(thetas: seq<real>)
    requires forall k :: 0 <= k < |thetas| ==> -DblMax < thetas[k] < DblMax
    ensures forall k :: 0 <= k < |thetas| ==> Fold(thetas).lo <= thetas[k] <= Fold(thetas).hi
    ensures thetas == [] ==> Fold(thetas) == NoBounds
    ensures thetas != [] ==> Fold(thetas).lo in thetas && Fold(thetas).hi in thetas
  {
    if thetas != [] {
      var init := thetas[..|thetas| - 1];
      FoldCoversAngles(init);
      assert forall k :: 0 <= k < |init| ==> init[k] == thetas[k];
      assert thetas == init + [thetas[|thetas| - 1]];
    }
  }

  /** The tracking as written finds the same minimum as the corrected one, and a maximum that
      is never above the corrected maximum; that maximum is an angle or still -DBL_MAX. */
  lemma {:induction false} AsWrittenKeepsMinimum(thetas: seq<real>)
    ensures FoldAsWritten(thetas).lo == Fold(thetas).lo
    ensures FoldAsWritten(thetas).hi <= Fold(thetas).hi
    ensures FoldAsWritten(thetas).hi == -DblMax || FoldAsWritten(thetas).hi in thetas
  {
    if thetas != [] {
      var init := thetas[..|thetas| - 1];
      AsWrittenKeepsMinimum(init);
      assert thetas == init + [thetas[|thetas| - 1]];
    }
  }

  /** The angles of the usable spectra, in spectrum order. */
  function UsableAngles(s: Settings, spectra: seq<Spectrum>): (a: seq<real>)
    ensures |a| == CountUsable(s, spectra)
  {
    if spectra == [] then []
    else
      var last := spectra[|spectra| - 1];
      UsableAngles(s, spectra[..|spectra| - 1]) + (if Usable(s, last) then [last.detector.value.twoTheta] else [])
  }

  /** The usable angles are exactly the angles of the usable spectra. */
  lemma {:induction false} UsableAnglesAreUsableSpectra(s: Settings, spectra: seq<Spectrum>)
    ensures forall k :: 0 <= k < |UsableAngles(s, spectra)| ==>
              exists i :: 0 <= i < |spectra| && Usable(s, spectra[i]) && UsableAngles(s, spectra)[k] == spectra[i].detector.value.twoTheta
    ensures forall i :: 0 <= i < |spectra| && Usable(s, spectra[i]) ==> spectra[i].detector.value.twoTheta in UsableAngles(s, spectra)
  {
    if spectra != [] {
      var init := spectra[..|spectra| - 1];
      UsableAnglesAreUsableSpectra(s, init);
      assert forall i :: 0 <= i < |init| ==> init[i] == spectra[i];
      var prev := UsableAngles(s, init);
      var a := UsableAngles(s, spectra);
      var last := spectra[|spectra| - 1];
      assert a == prev + (if Usable(s, last) then [last.detector.value.twoTheta] else []);
      forall k | 0 <= k < |a|
        ensures exists i :: 0 <= i < |spectra| && Usable(s, spectra[i]) && a[k] == spectra[i].detector.value.twoTheta
      {
        if k < |prev| {
          assert a[k] == prev[k];
          var i :| 0 <= i < |init| && Usable(s, init[i]) && prev[k] == init[i].detector.value.twoTheta;
          assert spectra[i] == init[i];
        } else {
          assert Usable(s, last) && a[k] == last.detector.value.twoTheta;
        }
      }
    } else {
      assert UsableAngles(s, spectra) == [];
    }
  }

  /** The angle bounds the cache is evidently meant to hold: every usable angle lies within
      them, the smallest and largest usable angles reach them, and with no usable spectrum they
      are the starting values. */
  function CorrectedBounds(s: Settings, spectra: seq<Spectrum>): (b: Bounds)
    requires AnglesInRange(spectra)
    ensures forall i :: 0 <= i < |spectra| && Usable(s, spectra[i]) ==>
              b.lo <= spectra[i].detector.value.twoTheta <= b.hi
    ensures CountUsable(s, spectra) == 0 ==> b == NoBounds
    ensures CountUsable(s, spectra) > 0 ==>
              && (exists i :: 0 <= i < |spectra| && Usable(s, spectra[i]) && spectra[i].detector.value.twoTheta == b.lo)
              && (exists i :: 0 <= i < |spectra| && Usable(s, spectra[i]) && spectra[i].detector.value.twoTheta == b.hi)
  {
    var a := UsableAngles(s, spectra);
    UsableAnglesAreUsableSpectra(s, spectra);
    FoldCoversAngles(a);
    Fold(a)
  }

  /** The bounds as the loop tracks them, spectrum by spectrum: only usable spectra move them. */
  function ScanBounds(s: Settings, spectra: seq<Spectrum>): Bounds {
    if spectra == [] then NoBounds
    else
      var prev := ScanBounds(s, spectra[..|spectra| - 1]);
      var last := spectra[|spectra| - 1];
      if Usable(s, last) then TrackAsWritten(prev, last.detector.value.twoTheta) else prev
  }

  /** Tracking spectrum by spectrum is the fold of the tracking over the usable angles. */
  lemma {:induction false} ScanBoundsFoldsUsableAngles(s: Settings, spectra: seq<Spectrum>)
    ensures ScanBounds(s, spectra) == FoldAsWritten(UsableAngles(s, spectra))
  {
    if spectra != [] {
      var init := spectra[..|spectra| - 1];
      var last := spectra[|spectra| - 1];
      ScanBoundsFoldsUsableAngles(s, init);
      var before := UsableAngles(s, init);
      if Usable(s, last) {
        var after := before + [last.detector.value.twoTheta];
        assert UsableAngles(s, spectra) == after;
        assert after[..|before|] == before;
      } else {
        assert UsableAngles(s, spectra) == before + [];
        assert before + [] == before;
      }
    }
  }

  /** The cached angle of each spectrum (-1 for one to skip), the number of usable spectra and
      the bounds of their angles. */
  datatype ThetaCache = ThetaCache(thetaPts: seq<real>, nDets: nat, bounds: Bounds)

  /** Detector angles lie in [0, DBL_MAX): the -1 marker cannot be confused with an angle. */
  predicate AnglesInRange(spectra: seq<Spectrum>) {
    forall i :: 0 <= i < |spectra| && spectra[i].detector.Some? ==>
      0.0 <= spectra[i].detector.value.twoTheta < DblMax
  }

  /** The angle the cache holds for a spectrum: its detector's angle when usable, else -1. */
  function CachedAngle(s: Settings, sp: Spectrum): real {
    if Usable(s, sp) then sp.detector.value.twoTheta else -1.0
  }

  /** Builds the angle cache as the algorithm does: unusable spectra are marked -1 and not
      counted, and the bounds are tracked with the maximum tested only when the minimum is not
      lowered. The minimum is the corrected one; the maximum is an angle or -DBL_MAX, and never
      above the corrected maximum. */
  method InitThetaCache(s: Settings, spectra: seq<Spectrum>) returns (c: ThetaCache)
    requires AnglesInRange(spectra)
    ensures |c.thetaPts| == |spectra|
    ensures forall i :: 0 <= i < |spectra| ==> c.thetaPts[i] == CachedAngle(s, spectra[i])
    ensures forall i :: 0 <= i < |spectra| ==> (c.thetaPts[i] >= 0.0 <==> Usable(s, spectra[i]))
    ensures c.nDets == CountUsable(s, spectra)
    ensures c.bounds == FoldAsWritten(UsableAngles(s, spectra))
    ensures c.bounds.lo == CorrectedBounds(s, spectra).lo
    ensures c.bounds.hi <= CorrectedBounds(s, spectra).hi
    ensures c.bounds.hi == -DblMax || exists i :: 0 <= i < |spectra| && Usable(s, spectra[i]) && c.thetaPts[i] == c.bounds.hi
  {
    var pts: seq<real> := [];
    var ndets: nat := 0;
    var b := NoBounds;
    for i := 0 to |spectra|
      invariant |pts| == i
      invariant forall k :: 0 <= k < i ==> pts[k] == CachedAngle(s, spectra[k])
      invariant ndets == CountUsable(s, spectra[..i])
      invariant b == ScanBounds(s, spectra[..i])
    {
      assert spectra[..i + 1][..i] == spectra[..i];
      var sp := spectra[i];
      var usable := false;
      if sp.detector.Some? {
        var e := GetEFixed(s, sp.detector.value);
        usable := e.Success? && !sp.detector.value.isMonitor;
      }
      assert usable == Usable(s, sp);
      assert (if usable then sp.detector.value.twoTheta else -1.0) == CachedAngle(s, sp);
      if !usable {
        pts := pts + [-1.0];
      } else {
        var theta := sp.detector.value.twoTheta;
        ndets := ndets + 1;
        pts := pts + [theta];
        b := TrackAsWritten(b, theta);
      }
    }
    assert spectra[..|spectra|] == spectra;
    c := ThetaCache(pts, ndets, b);
    ScanBoundsFoldsUsableAngles(s, spectra);
    CacheBoundsAsWritten(s, spectra, pts);
  }

  /** The bounds tracked as written over the usable angles keep the corrected minimum, stay
      at or below the corrected maximum, and end on a usable spectrum's angle unless no angle
      ever raised the maximum. */
  lemma CacheBoundsAsWritten(s: Settings, spectra: seq<Spectrum>, pts: seq<real>)
    requires AnglesInRange(spectra)
    requires |pts| == |spectra|
    requires forall i :: 0 <= i < |spectra| && Usable(s, spectra[i]) ==> pts[i] == spectra[i].detector.value.twoTheta
    ensures FoldAsWritten(UsableAngles(s, spectra)).lo == CorrectedBounds(s, spectra).lo
    ensures FoldAsWritten(UsableAngles(s, spectra)).hi <= CorrectedBounds(s, spectra).hi
    ensures var hi := FoldAsWritten(UsableAngles(s, spectra)).hi;
            hi == -DblMax || exists i :: 0 <= i < |spectra| && Usable(s, spectra[i]) && pts[i] == hi
  {
    var a := UsableAngles(s, spectra);
    AsWrittenKeepsMinimum(a);
    UsableAnglesAreUsableSpectra(s, spectra);
    var hi := FoldAsWritten(a).hi;
    if hi != -DblMax {
      var k :| 0 <= k < |a| && a[k] == hi;
      var i :| 0 <= i < |spectra| && Usable(s, spectra[i]) && a[k] == spectra[i].detector.value.twoTheta;
      assert pts[i] == hi;
    }
  }

  /** A spectrum the rebinning loop works on, with the fixed energy it uses. */
  datatype Work = Work(index: nat, efixed: real)

  /** `w` is the work on the usable spectra of `spectra`, in index order: every item is a
      usable spectrum with its fixed energy, the indices strictly increase, and every usable
      spectrum has an item. */
  predicate WorkOnUsable(s: Settings, spectra: seq<Spectrum>, w: seq<Work>) {
    && (forall k :: 0 <= k < |w| ==>
          && w[k].index < |spectra|
          && Usable(s, spectra[w[k].index])
          && w[k].efixed == GetEFixed(s, spectra[w[k].index].detector.value).value)
    && (forall k, l :: 0 <= k < l < |w| ==> w[k].index < w[l].index)
    && (forall i :: 0 <= i < |spectra| && Usable(s, spectra[i]) ==> exists k :: 0 <= k < |w| && w[k].index == i)
  }

  /** The spectra a run works on, by usability rather than by cached angle, in index order. */
  function ExpectedWork(s: Settings, spectra: seq<Spectrum>): (w: seq<Work>)
    ensures |w| == CountUsable(s, spectra)
    ensures WorkOnUsable(s, spectra, w)
  {
    if spectra == [] then []
    else
      var init := spectra[..|spectra| - 1];
      var last := spectra[|spectra| - 1];
      var prev := ExpectedWork(s, init);
      var tail := if Usable(s, last) then [Work(|spectra| - 1, GetEFixed(s, last.detector.value).value)] else [];
      WorkExtends(s, spectra, prev, tail);
      prev + tail
  }

  /** One more spectrum appends its item to the work exactly when it is usable. */
  lemma ExpectedWorkStep(s: Settings, spectra: seq<Spectrum>, i: nat)
    requires i < |spectra|
    ensures ExpectedWork(s, spectra[..i + 1])
         == ExpectedWork(s, spectra[..i])
            + (if Usable(s, spectra[i]) then [Work(i, GetEFixed(s, spectra[i].detector.value).value)] else [])
  {
    assert spectra[..i + 1][..i] == spectra[..i];
  }

  /** Work on all spectra but the last, followed by the last one's item when it is usable, is
      work on all of them. */
  lemma WorkExtends(s: Settings, spectra: seq<Spectrum>, prev: seq<Work>, tail: seq<Work>)
    requires spectra != []
    requires WorkOnUsable(s, spectra[..|spectra| - 1], prev)
    requires var last := spectra[|spectra| - 1];
             tail == if Usable(s, last) then [Work(|spectra| - 1, GetEFixed(s, last.detector.value).value)] else []
    ensures WorkOnUsable(s, spectra, prev + tail)
  {
    var init := spectra[..|spectra| - 1];
    var w := prev + tail;
    assert forall i :: 0 <= i < |init| ==> init[i] == spectra[i];
    forall i | 0 <= i < |spectra| && Usable(s, spectra[i])
      ensures exists k :: 0 <= k < |w| && w[k].index == i
    {
      if i < |init| {
        assert Usable(s, init[i]);
        var k :| 0 <= k < |prev| && prev[k].index == i;
        assert w[k] == prev[k];
      } else {
        assert w[|prev|].index == i;
      }
    }
  }

  /** The algorithm's run: input without common binning is rejected, the settings are
      resolved, and every spectrum whose cached angle is not negative is rebinned with its fixed
      energy. The work done is exactly the usable spectra, and the energy lookup inside the loop
      never fails. */
  method Exec(commonBinning: bool, emodeText: string, efixed: real, ei: EiLog, spectra: seq<Spectrum>)
    returns (r: Result<seq<Work>, Error>)
    requires AnglesInRange(spectra)
    ensures r.Failure? <==> !commonBinning || ResolveSettings(emodeText, efixed, ei).Failure?
    ensures r.Failure? && !commonBinning ==> r.error == NoCommonBinning
    ensures r.Failure? && commonBinning ==> r.error == ResolveSettings(emodeText, efixed, ei).error
    ensures r.Success? ==> r.value == ExpectedWork(ResolveSettings(emodeText, efixed, ei).value, spectra)
  {
    if !commonBinning {
      return Failure(NoCommonBinning);
    }
    var resolved := ResolveSettings(emodeText, efixed, ei);
    if resolved.Failure? {
      return Failure(resolved.error);
    }
    var s := resolved.value;
    var cache := InitThetaCache(s, spectra);
    var work: seq<Work> := [];
    for i := 0 to |spectra|
      invariant work == ExpectedWork(s, spectra[..i])
    {
      ExpectedWorkStep(s, spectra, i);
      var theta := cache.thetaPts[i];
      if theta < 0.0 {
        continue;
      }
      var e := GetEFixed(s, spectra[i].detector.value).value;
      work := work + [Work(i, e)];
    }
    assert spectra[..|spectra|] == spectra;
    return Success(work);
  }

  /** Once the settings resolve in direct mode, every detector's fixed energy resolves: only
      monitors and missing detectors are skipped. */
  lemma DirectModeSkipsOnlyMonitors(emodeText: string, efixed: real, ei: EiLog, sp: Spectrum)
    requires ResolveSettings(emodeText, efixed, ei).Success?
    requires EModeFromString(emodeText) == Direct
    ensures Usable(ResolveSettings(emodeText, efixed, ei).value, sp) <==> sp.detector.Some? && !sp.detector.value.isMonitor
  {
  }

  /** A supplied EFixed, or direct mode, makes the fixed energy the same for every detector. */
  lemma SettledEFixedIgnoresDetector(s: Settings, d1: Detector, d2: Detector)
    requires s.emode == Direct || s.efixedGiven
    ensures GetEFixed(s, d1) == GetEFixed(s, d2) == Success(s.efixed)
  {
  }

  /** The elastic mode reads the detector parameter like the indirect one when no EFixed is
      supplied. */
  lemma ElasticModeReadsDetector(text: string, ei: EiLog, det: Detector)
    requires text != "Direct" && text != "Indirect"
    ensures ResolveSettings(text, 0.0, ei).Success?
    ensures GetEFixed(ResolveSettings(text, 0.0, ei).value, det)
         == GetEFixed(ResolveSettings("Indirect", 0.0, ei).value, det)
  {
  }
}

=== FILE: wrappers.dfy ===
/** Failure-compatible wrappers shared by every module of the model.
    A C++ exception or a null return becomes a `Failure` or a `None`. */
module Wrappers {

  /** A value that may be absent (a null pointer, an unset optional). */
  datatype Option<+T> = None | Some(value: T)

  /** The outcome of an operation that can throw: its value, or the error it raised. */
  datatype Result<+T, +E> = Success(value: T) | Failure(error: E) {

    predicate IsFailure() {
      Failure?
    }

    function PropagateFailure<U>(): Result<U, E>
      requires Failure?
    {
      Failure(error)
    }

    function Extract(): T
      requires Success?
    {
      value
    }
  }
}
